=== FILE: README.md ===
# memcachedbetween, modelled in Dafny

memcachedbetween is a proxy that sits between memcached clients and an AWS
ElastiCache memcached cluster. It asks the cluster's configuration endpoint
for the node list through ElastiCache Auto Discovery (`config get cluster`).
For every node it opens a local listener, on a unix socket or a TCP port,
that forwards whole memcached binary-protocol messages over pooled upstream
connections. It also runs a small fake configuration server that advertises
those local listeners in the same Auto Discovery format.

This project models the core of that program as pure Dafny functions, with a
few methods that mirror the source's loops, and proves what each piece promises:

- `Elasticache`: the discovery client (`elasticache/elasticache.go`). It
  completes the endpoint with the default port, scans the reply line by line
  the way Go's `bufio.Scanner` does, and picks the third line. It then parses
  the `host|ip|port` items into `host:port` addresses.
- `ConfigServer`: the fake configuration server (`handlers/config.go`). It
  buffers the bytes read, takes complete CRLF-terminated commands off the
  front, and answers `stats` and `config get cluster`.
- `Wire`: the message framing and forwarding of `handlers/command.go`. This
  covers the 24-byte header with its big-endian length at bytes 8 to 11, the
  read and write deadlines, the error paths and which of them close the
  connection, and one round trip through a checked-out upstream connection.
- `Settings`: command-line validation (`config/config.go`). This covers the
  defaults, the order in which errors are reported, and the list of accepted
  networks.
- `Listeners`: `createListeners` (`main.go`). It builds one proxy listener
  per upstream, with its local address and config entry, and then the config
  listener that carries the space-joined entries.
- `PoolMonitor`: `poolMonitor` (`main.go`). It turns an event name from
  camelCase into a snake_case metric name. It sends the four connection events
  to two gauges and counts every other event.
- `Signals`: the `shutdownOnSignal` state machine (`main.go`). The first
  signal shuts down, and after that each interrupt kills the open connections.
- `ResourcePool` and `ResourcePoolTests`: the doubly linked FIFO of idle
  resources that `pool/resource_pool_test.go` pins down.
- `Discovery`: both halves of Auto Discovery together. The discovery client
  reads the fake configuration server's reply back into exactly the proxies
  `createListeners` advertised, in order, when they listen on TCP. When they
  listen on unix sockets, it rejects the first entry.
- Shared building blocks: `Results` (Option, Result, and collecting results
  up to the first failure), `Text` (Go's `strings.Index`, `Contains`, `Split`
  and `Join`, and ASCII lower-casing), `Decimal` (`%d` printing and
  `strconv.Atoi` within 64 bits) and `LineScanner` (`bufio.ScanLines`).

Strings are `seq<char>`, and all protocol text is ASCII. Wire messages are
sequences of a `byte` newtype. Sockets become values:
- A connection (`Wire.Conn`) holds the bytes still to be read and how the
  input ends (EOF or another error). It also records whether setting a
  deadline or writing fails, the bytes written so far and whether it was
  closed.
- A reader for discovery (`Elasticache.Stream`) is its bytes plus whether it
  reports an error after them.
- The clock is a `now` parameter. A context is whether it is done plus its
  optional deadline.
- Zap's level-name parser is a function parameter. The event-type constants
  of the unseen pool package are a record parameter (`PoolMonitor.EventKinds`).

## Model

| member | source | states |
|---|---|---|
| Results.Collect | elasticache/elasticache.go:79-91 | items are processed in order: success iff every item succeeds, with one value per item in order; otherwise the error of the first failing item, all before it having succeeded |
| Text.IndexOf | handlers/config.go:30 | `strings.Index`: -1 iff the pattern does not occur, otherwise its first occurrence |
| Text.ContainsIff | main.go:96 | `strings.Contains` holds iff the pattern occurs at some position |
| Text.Split | elasticache/elasticache.go:77-80 | `strings.Split` on one character: at least one piece, none holding the separator |
| Text.Join | main.go:136 | definition of `strings.Join`; stated by `SplitJoin`, `JoinSplit` and `JoinWithoutSeparator` |
| Text.ToLower | main.go:155 | the length is kept, no upper-case ASCII letter is left, every other character is kept, and each upper-case letter becomes the letter 32 code points above it |
| Text.ToLowerIdempotent | main.go:155 | lower-casing twice is the same as once |
| Text.SplitJoin | elasticache/elasticache.go:77-80 | splitting a join of separator-free pieces gives the pieces back |
| Text.JoinSplit | main.go:136 | joining the pieces of a split restores the text |
| Text.JoinWithoutSeparator | main.go:136 | a character that is neither the separator nor in any piece is not in the join |
| Decimal.IntToDecimal | main.go:97-102 | `%d` of an integer: a minus sign exactly for a negative number, followed by the printed magnitude |
| Decimal.NatToDecimal | handlers/config.go:42 | `%d` of a non-negative number is a non-empty run of digits, without a leading zero, whose value is the number |
| Decimal.Atoi | elasticache/elasticache.go:82 | `strconv.Atoi`: an accepted text is non-empty, starts with a digit or a sign, and its value lies in the 64-bit range |
| Decimal.AtoiSpells | elasticache/elasticache.go:82 | `strconv.Atoi` returns `v` exactly when `v` is a 64-bit integer and the text is an optional sign (`+` only for `v >= 0`, `-` only for `v <= 0`), then leading zeros, then `%d` of the magnitude; every other text is an error |
| Decimal.AtoiSpelled | elasticache/elasticache.go:82 | every text `strconv.Atoi` accepts spells the number it returns |
| Decimal.SpelledAtoi | elasticache/elasticache.go:82 | every spelling of a 64-bit integer is accepted and read as that integer |
| Decimal.Canonical | elasticache/elasticache.go:82 | every non-empty digit string is `%d` of its number behind leading zeros |
| Decimal.AtoiExamples | elasticache/elasticache.go:82-87 | port texts `+7` and `007` read as 7 and `-0` as 0, while `11211x`, `+-7` and `+` are refused |
| Decimal.AtoiOfDecimal | elasticache/elasticache.go:82-87 | `strconv.Atoi` reads back every 64-bit integer printed with `%d` |
| Decimal.DecimalInjective | elasticache/elasticache.go:87 | distinct integers print differently |
| LineScanner.ScanLines | elasticache/elasticache.go:56-57 | definition of the tokens `bufio.ScanLines` yields; stated by `ScanTerminatedLines` and `ScanOpenLast` |
| LineScanner.ScanTerminatedLines | elasticache/elasticache.go:56-57 | the scanner yields each newline-terminated line without its trailing carriage return |
| LineScanner.ScanTerminated | elasticache/elasticache.go:56-60 | scanning newline-terminated plain lines gives the lines back |
| LineScanner.ScanOpenLast | elasticache/elasticache.go:56-57 | a last line without a newline is still yielded, after the terminated ones, each without a trailing carriage return |
| LineScanner.TerminatedClosed | elasticache/elasticache.go:56-57 | newline-terminated lines never leave an open last line |
| Elasticache.WithDefaultPort | elasticache/elasticache.go:17-19 | the endpoint is kept as a prefix and the result names a port: unchanged iff the endpoint already has a colon, otherwise `:11211` is appended |
| Elasticache.WithDefaultPortIdempotent | elasticache/elasticache.go:17-19 | completing an endpoint twice is the same as once |
| Elasticache.EndIndex | elasticache/elasticache.go:62-64 | the position of the first `END` line, or the number of lines when there is none |
| Elasticache.ReadsToEnd | elasticache/elasticache.go:57-67 | definition: the scanner asked the reader for more after the last line before the loop ended, that is no `END` or an `END` that is the open last line; used by `NodesLineOf` |
| Elasticache.NodesLineOf | elasticache/elasticache.go:53-71 | definition of `parseNodes` over the scanned lines; its cases are stated by `ScanNodesLine`, `ThirdLineEnd`, `ShortReplyGivesEmpty` and `ScanErrorWithoutEnd` |
| Elasticache.NodesLine | elasticache/elasticache.go:50-72 | definition: `NodesLineOf` of the reader's scanned lines, its error flag and whether its data ends without a newline |
| Elasticache.ScanNodesLine | elasticache/elasticache.go:53-71 | the scanning loop answers what `NodesLineOf` states: the third line read up to the first `END`, "" with fewer lines, and the reader error exactly when the scanner read past the last line, that is when no `END` was met or the `END` line is the last one and has no newline |
| Elasticache.ParseNodes | elasticache/elasticache.go:50-72 | `parseNodes` on a reader is the nodes line of its scanned lines |
| Elasticache.ParseItem | elasticache/elasticache.go:80-88 | definition of one turn of the item loop, with the missing-field guard; stated by `ParseItemAddress`, `ParseItemOfEntry` and `UnixEntryRejected` |
| Elasticache.NodesLineIgnoresAfterEnd | elasticache/elasticache.go:62-64 | lines after the first `END` do not change the answer; a reader error matters only when the `END` line is the open last line |
| Elasticache.ThirdLineEnd | elasticache/elasticache.go:59-69 | line 3 is captured before the `END` test, so a third line reading `END` is the answer, unless it is the open last line of a failing reader, which gives the error |
| Elasticache.ShortReplyGivesEmpty | elasticache/elasticache.go:51-71 | fewer than three lines before `END` or the end of input give "", or the reader error when the scanner read to the end |
| Elasticache.ScanErrorWithoutEnd | elasticache/elasticache.go:67-69 | a reader error with no `END` line is returned as the error |
| Elasticache.UnterminatedEndFails | elasticache/elasticache.go:56-69 | a failing reader whose data ends in an `END` line without a newline gives the error, not the nodes line |
| Elasticache.TerminatedEndIgnoresError | elasticache/elasticache.go:56-69 | when the `END` line ends in a newline, a failing reader gives the same answer as one that ends cleanly |
| Elasticache.ParseItemAddress | elasticache/elasticache.go:80-88 | an item's address is its first field, a colon, and a decimal port that reads back as the third field's number |
| Elasticache.ParseItemsAsWritten | elasticache/elasticache.go:79-89 | the item loop, which indexes `fields[2]` unguarded, computes the collected addresses, stopping at the first bad port |
| Elasticache.ParseURLs | elasticache/elasticache.go:74-92 | the guarded `parseURLs` succeeds only when every item has a port field, and then gives one address per item |
| Elasticache.ParseURLsAsWritten | elasticache/elasticache.go:74-92 | where every item has three fields, `parseURLs` as written agrees with the guarded `ParseURLs` |
| Elasticache.DiscoverFrom | elasticache/elasticache.go:37-47 | definition: the nodes line of the reply, then its addresses, stopping at the first error; stated end to end by `Discovery.DiscoverTcpProxies` and `Discovery.DiscoverUnixProxiesFails` |
| Elasticache.EndOnlyReplyHasNoPortField | elasticache/elasticache.go:74-82 | a reply that is only `END` yields the nodes line "", whose single item lacks the third field the source indexes |
| Elasticache.ParseItemIgnoresMiddle | elasticache/elasticache.go:80-87 | the address does not depend on the middle (IP) field |
| Elasticache.EntrySplit | elasticache/elasticache.go:80 | `host|mid|port` splits at its bars into host, mid and the pieces of port |
| Elasticache.ParseItemOfEntry | elasticache/elasticache.go:80-87 | an entry `host|ip|<64-bit decimal>` parses to `host:<same decimal>` |
| Elasticache.UnixEntryRejected | elasticache/elasticache.go:82-85 | an entry `path||` fails on its empty port field |
| ConfigServer.Header | handlers/config.go:42 | definition of the reply's first line, `CONFIG cluster 0` and the length of the config string |
| ConfigServer.ClusterReply | handlers/config.go:42 | definition of the `config get cluster` reply; its lines are stated by `Discovery.ClusterReplyLines` |
| ConfigServer.Reply | handlers/config.go:36-46 | definition of the reply to one command: the fixed `STAT version` reply for `stats`, the cluster reply for `config get cluster`, nothing otherwise; stated by `Discovery.RequestAnswered` |
| ConfigServer.Replies | handlers/config.go:29-48 | at most one reply per command; `RepliesAppend` states that the replies to two runs of commands concatenate |
| ConfigServer.SplitCommands | handlers/config.go:29-35 | definition of the inner loop's split of the buffer; stated by `SplitCommandsSound` and `SplitDelimited` |
| ConfigServer.RepliesAppend | handlers/config.go:29-48 | the replies to two runs of commands are the replies to each, concatenated |
| ConfigServer.CRLFAtIff | handlers/config.go:30 | a CRLF at a position means the two-character slice there is `\r\n` |
| ConfigServer.FirstCRLF | handlers/config.go:30-33 | `strings.Index(buf, "\r\n")` is the first CRLF: none before it, and -1 exactly when there is none |
| ConfigServer.FirstCRLFAfter | handlers/config.go:30-35 | in `command + CRLF + tail` with a CRLF-free command, the first CRLF follows the command |
| ConfigServer.SplitCommandsSound | handlers/config.go:29-35 | the commands taken off the buffer and the remainder rebuild the buffer, and none of them contains a CRLF |
| ConfigServer.SplitDelimited | handlers/config.go:29-35 | CRLF-terminating CRLF-free commands and appending a CRLF-free remainder, then splitting, gives back the commands and the remainder |
| ConfigServer.TakeOne | handlers/config.go:34-35 | taking one command off the front keeps the CRLF-terminated commands plus the remainder equal to the buffer |
| ConfigServer.Drain | handlers/config.go:29-48 | the inner loop writes the replies to exactly the complete commands of the buffer, in order, and keeps the incomplete rest |
| ConfigServer.ServeStep | handlers/config.go:27 | appending a read to the buffer keeps everything handled plus the buffer equal to all bytes read |
| ConfigServer.Serve | handlers/config.go:14-49 | over any sequence of reads, the writes are the replies to the complete commands of all bytes read, and the buffer holds the incomplete rest |
| Settings.ParseFlags | config/config.go:47-110 | definition of `ParseFlags` from the parsed flag values; stated by `ErrorOrder`, `ConfigFromFlags` and `DefaultsAccepted` |
| Settings.MessageNamesValue | config/config.go:78-88 | the invalid-loglevel and invalid-network messages end with the offending value |
| Settings.Listed | config/config.go:112-119 | `validNetwork`'s loop answers true iff the name is in the list |
| Settings.ValidNetwork | config/config.go:15 | exactly tcp, tcp4, tcp6, unix and unixpacket are accepted |
| Settings.ErrorOrder | config/config.go:74-89 | errors come in a fixed order, loglevel then upstream then network, each only when the earlier checks passed; success iff all pass |
| Settings.ConfigFromFlags | config/config.go:91-109 | on success every field is copied from its flag, the upstream is the first argument, and the level is Info when none is named |
| Settings.DefaultsAccepted | config/config.go:58-70 | with only an upstream given, the documented defaults are accepted |
| Listeners.UnixMode | main.go:96 | definition: the network name contains `unix`; stated by `UnixModeOfValidNetwork` |
| Listeners.LocalAddress | main.go:95-101 | definition of the local address of an index; stated by `Addresses` |
| Listeners.ConfigEntry | main.go:96-102 | definition of the config entry of an index; stated by `Addresses` and `TcpEntryFields` |
| Listeners.ConfigEntries | main.go:94-103 | the entries advertise the proxies in index order, one per upstream |
| Listeners.Proxies | main.go:94-133 | the `i`-th proxy listens on the `i`-th local address, forwards to the `i`-th upstream and uses the configured network and unlink flag |
| Listeners.Addresses | main.go:95-103 | the loop body's local address and config entry for an index: with unix sockets the path is prefix, index, suffix, with the index reading back from between them, and the entry is the path followed by two bars; on TCP the address is `:` and a port that reads back as the start port plus the index, and the entry splits into `localhost`, `127.0.0.1` and that port |
| Listeners.ProxyListeners | main.go:94-133 | the loop builds one proxy and one entry per upstream, in upstream order |
| Listeners.CreateListeners | main.go:90-147 | the listeners are one proxy per upstream, in order, then the tcp4 config listener on the local config host serving the space-joined entries |
| Listeners.UnixModeOfValidNetwork | main.go:96 | of the accepted networks, exactly unix and unixpacket select unix sockets |
| Listeners.DecimalHasNoSeparator | main.go:97-102 | a printed number holds no space, bar or newline |
| Listeners.TcpEntryFields | main.go:100-102 | a TCP entry splits into `localhost`, `127.0.0.1` and the printed port |
| Listeners.EntryHasNoSpace | main.go:96-103 | no entry holds a space or a newline, provided a socket path has none |
| Listeners.EntriesOfJoined | main.go:136 | splitting the joined entries at spaces gives the entries back |
| PoolMonitor.ReplaceBoundaries | main.go:155 | definition of the regex replacement, scanning left to right; stated by the `Replace` lemmas below |
| PoolMonitor.EventName | main.go:155-156 | definition: `pool_event.` and the lower-cased rewritten event type; stated by `Dispatch` |
| PoolMonitor.ReplaceIsUnderscored | main.go:155 | the left-to-right regex replacement equals inserting `_` at every lower-or-digit then upper boundary of the original text |
| PoolMonitor.ReplaceOnlyInserts | main.go:155 | the rewrite only inserts underscores: removing them gives the original back |
| PoolMonitor.ReplaceKeepsFirst | main.go:155 | the first character is kept |
| PoolMonitor.ReplaceLeavesNoBoundary | main.go:155 | the rewritten name has no lower-or-digit then upper pair left |
| PoolMonitor.ReplaceWithoutBoundary | main.go:155 | a name with no such pair is left unchanged |
| PoolMonitor.ReplaceIdempotent | main.go:155 | rewriting twice is the same as once |
| PoolMonitor.Dispatch | main.go:154-172 | every event gets the `pool_event.` name and the address and reason tags; exactly the four connection events move a gauge: with distinct event types, the open-connections gauge goes up one for a created and down one for a closed connection, and the checked-out gauge up one for a checkout and down one for a return |
| PoolMonitor.Metrics | main.go:153-174 | one metric per event, in event order |
| PoolMonitor.GaugesTrackEvents | main.go:150-172 | the open-connections gauge is created minus closed events, and the checked-out gauge is checked-out minus returned events |
| Signals.Step | main.go:205-221 | definition of one turn of the loop; its protocol is stated by `OnSignal` and `AfterShutdown` |
| Signals.Run | main.go:204-222 | definition of the loop over all signals; stated by `RunFrom`, `SignalProtocol` and `NoSignalNoAction` |
| Signals.RunFrom | main.go:204-222 | running a signal sequence is one step followed by the run of the rest |
| Signals.OnSignal | main.go:205-221 | after any signal shutdown has been attempted; the shutdown happens iff it had not been attempted before, and then first; the hint is scheduled iff that first signal is an interrupt; a kill happens iff shutdown was already attempted and the signal is an interrupt; a later terminate does nothing; no action is taken twice |
| Signals.StepIsProtocol | main.go:205-221 | a new state and actions meet that protocol exactly when they are what one turn of the loop computes |
| Signals.Handle | main.go:202-223 | the goroutine's loop over the received signals performs the state machine's actions, in order |
| Signals.AfterShutdown | main.go:217-221 | once shutdown was attempted, the only action is kill, once per interrupt, and the state stays |
| Signals.SignalProtocol | main.go:203-221 | the first signal starts the shutdown, exactly once; the hint is scheduled iff the first signal is an interrupt; later there is one kill per later interrupt |
| Signals.NoSignalNoAction | main.go:204 | without signals nothing happens |
| Wire.BodyLength | handlers/command.go:210 | the body length is an unsigned 32-bit number |
| Wire.MessageSize | handlers/command.go:210 | a message is at least its 24-byte header and less than 24 + 2^32 bytes |
| Wire.BodyLengthOfBytes | handlers/command.go:210 | bytes 8 to 11 read back, big-endian, as the length that was written there |
| Wire.Int32 | handlers/command.go:210 | the `int32` conversion lies in the 32-bit signed range and agrees with the integer modulo 2^32 |
| Wire.SizeAsWritten | handlers/command.go:210 | the source's `int32` size; stated by `SizeAsWrittenInRange` and `NegativeSizeAsWritten` |
| Wire.SizeAsWrittenInRange | handlers/command.go:210 | the source's `int32` size is exact for body lengths up to 2^31 - 25 |
| Wire.NegativeSizeAsWritten | handlers/command.go:210-220 | a header whose byte 8 is 0x80 gives the source a negative size |
| Wire.Deadline | handlers/command.go:142-149 | no deadline iff no timeout and no context deadline; otherwise the earlier of now plus the timeout and the context deadline |
| Wire.KindMessageNamesKind | handlers/command.go:138-228 | each `ConnectionError` message belongs to exactly one failure kind |
| Wire.ReadWireMessage | handlers/command.go:170-239 | a success is the next whole message and leaves the rest unread; every failure except a failed deadline closes the connection; a done context gives "failed to read", a failed deadline "failed to set read deadline", a short header other than a clean EOF before any byte "incomplete read of message header", that clean EOF the bare end of stream, and a complete header with a short body "incomplete read of full message" |
| Wire.WriteWireMessage | handlers/command.go:134-168 | the write succeeds iff the context is live and setting the deadline and writing succeed; it then appends the message, and only a failed write closes; a done context gives "failed to write", a failed deadline "failed to set write deadline", and a failed write "unable to write wire message to network" |
| Wire.ReadFramed | handlers/command.go:194-238 | reading a well-framed message followed by more bytes returns that message and leaves the rest |
| Wire.WriteThenRead | handlers/command.go:134-239 | a framed message written by one side is read back whole by the other |
| Wire.RoundTripOf | handlers/command.go:92-112 | a failed checkout is returned as the error with nothing to return to the pool; a checked-out connection is always returned |
| Wire.HandleMessage | handlers/command.go:70-90 | success needs a checked-out connection, which is returned; a failed checkout writes nothing to the client |
| Wire.ForwardOne | handlers/command.go:70-112 | with a framed request from the client and a framed reply from upstream, the request goes upstream and the reply comes back to the client |
| ResourcePool.Valid | pool/resource_pool_test.go:52-65 | definition of a well-formed list: the size counts the nodes, `start` and `end` are the ends, and `prev` and `next` link neighbours |
| ResourcePool.Items | pool/resource_pool_test.go:94-95 | as many items as the list has nodes, read from `start` to `end` |
| ResourcePool.Put | pool/resource_pool_test.go:56-65 | definition of `Put` below capacity; stated by `PutAppends`, `PutLinks`, `PutNode` and `PutItems` |
| ResourcePool.Get | pool/resource_pool_test.go:67-74 | definition of `Get`; stated by `GetTakesStart`, `GetLinks`, `GetItems` and `GetKeepsValue` |
| ResourcePool.New | pool/resource_pool_test.go:50-54 | a new pool is a valid list with no items |
| ResourcePool.PutAppends | pool/resource_pool_test.go:56-65 | `Put` keeps the list valid and appends its item at the end |
| ResourcePool.PutLinks | pool/resource_pool_test.go:60-65 | after `Put` every node links to its neighbours, and `start` and `end` name the two ends |
| ResourcePool.PutNode | pool/resource_pool_test.go:86-96 | `Put` adds the new node at the end, links the old end to it, and leaves every other node as it was |
| ResourcePool.PutItems | pool/resource_pool_test.go:84-96 | the items after `Put` are the old items followed by the new one |
| ResourcePool.GetTakesStart | pool/resource_pool_test.go:67-74 | `Get` on an empty list returns nothing and changes nothing; otherwise it returns the first item and leaves the rest, still valid |
| ResourcePool.GetLinks | pool/resource_pool_test.go:67-74 | after `Get` the list is still valid, with the old second node as its start |
| ResourcePool.GetItems | pool/resource_pool_test.go:98-111 | `Get` returns the first item and the remaining items are the rest, in order |
| ResourcePool.GetKeepsValue | pool/resource_pool_test.go:98-111 | every node that survives `Get` keeps its item |
| ResourcePool.PutAllAppends | pool/resource_pool_test.go:84-96 | putting several items appends them all, in order |
| ResourcePool.GetNTakesFront | pool/resource_pool_test.go:98-111 | getting `n` items yields the first `n` items, in order |
| ResourcePool.FirstInFirstOut | pool/resource_pool_test.go:98-111 | whatever is put into a new pool comes out in the same order |
| ResourcePoolTests.NewIsEmpty | pool/resource_pool_test.go:50-54 | a new pool has size 0, no nodes and nil `start` and `end` |
| ResourcePoolTests.ListLifecycle | pool/resource_pool_test.go:49-83 | on an empty list, `Put` makes a one-node list holding the item, with no links; `Get` returns it and leaves an empty list |
| ResourcePoolTests.AddedToEnd | pool/resource_pool_test.go:84-96 | after putting `a` and then `b`, `start` holds `a` and `end` holds `b` |
| ResourcePoolTests.TakenFromStart | pool/resource_pool_test.go:98-111 | after putting `a` and then `b`, two `Get`s return `a` and then `b` |
| Discovery.ClusterReplyLines | handlers/config.go:42 | the cluster reply is five newline-terminated lines: header, version, node list, empty line, `END` and a carriage return |
| Discovery.ClusterReplyNodesLine | elasticache/elasticache.go:50-72 | the discovery client reads back the node list the fake server sent, less a trailing carriage return |
| Discovery.RequestAnswered | handlers/config.go:29-46 | the request the client sends is one complete command, answered with the cluster reply |
| Discovery.TcpEntriesParse | elasticache/elasticache.go:74-92 | the joined TCP entries parse into `localhost:<port>` for each proxy, in order |
| Discovery.TcpEntryParses | main.go:100-102 | one TCP entry parses into `localhost:<its port>` |
| Discovery.JoinedHasNoNewline | main.go:94-136 | the joined entries hold no newline, provided a socket path has none |
| Discovery.LastEntryNotCR | main.go:136 | the joined entries do not end in a carriage return |
| Discovery.EntryEnd | main.go:98-102 | an entry ends in a port digit or in a bar |
| Discovery.DiscoverTcpProxies | main.go:136-139 | discovery through the config listener finds every TCP proxy at `localhost:<port>`, in upstream order |
| Discovery.UnixEntryFails | main.go:97-98 | a unix-socket entry fails to parse, on its empty port field |
| Discovery.DiscoverUnixProxiesFails | main.go:96-98 | discovery through the config listener fails when the proxies use unix sockets |

## Left out

- Sockets, dialling, listening and goroutines are not modelled. A connection
  is a value holding the bytes it will deliver. The `listener` package and
  `pool.ConnectServer`, `pool.Server` and `ConnectionWrapper` are not part
  of this model.
- Logging (zap) and metrics (statsd) are not modelled, including timings and
  the `StatsdBackgroundGauge` internals. Only the metric names, tags and gauge
  directions of `poolMonitor` are modelled.
- The errors that `util.StatsdWithTags`, `pool.ConnectServer` and
  `listener.New` can return inside `createListeners` are not modelled, because
  that code is not visible. `Listeners.CreateListeners` models the path on
  which they all succeed.
- Flag parsing itself (`flag.Parse`, usage output, `os.Exit`) is not modelled.
  `Settings.ParseFlags` starts from the parsed flag values. Zap's level-name
  parser is a parameter.
- Time is a parameter. Deadlines that expire while bytes are in flight,
  partial reads and writes, and the reuse of `dst`'s capacity are not modelled.
- `processMessages`' loop and its `kill` channel are not modelled;
  `Wire.HandleMessage` models one pass.
- The pool's event-type constants live in the pool package, which is not part
  of this model. They are a parameter, so the concrete metric names of the
  four events are not derived.
- `Listeners.LocalPort`: `LocalPortStart + index` uses Go's 64-bit `int`.
  The model uses unbounded integers, and `Discovery.PortsFit` requires the
  ports to fit in 64 bits.
- `ConfigServer.ClusterReply`: the reply's header gives `len(configsJoined)`
  in bytes. The model counts characters, which is the same for ASCII socket
  paths.
- `Elasticache.NodesLine`: `bufio.Scanner`'s 64 KiB token limit is not
  modelled. A reader is its bytes followed, optionally, by an error from the
  next read. A reader that returns its last bytes and the error from the same
  `Read` is not modelled: the scanner records that error at once and still
  yields every buffered line, so `scanner.Err()` reports it even after the loop
  stops at an `END` line that ends in a newline, and `parseNodes` returns the
  error where `Elasticache.TerminatedEndIgnoresError` gives the nodes line.
- `ConfigServer.Serve`: the source panics when a reply cannot be written. The
  model treats every write as successful.
- `Text.ToLower`: only ASCII case folding is modelled. Go's `strings.ToLower`
  also folds other Unicode letters.
- The capacity limit, `totalSize`, expiry and `Put`'s boolean result of
  `resourcePool` are not modelled: its implementation is not part of this
  model, and the tests only assert that `Put` succeeds below capacity.
- `pool/pool_test.go`, `listener/listener.go` and `test.rb` are not part of
  this model. They exercise live servers.

## Findings

| source | as written | input that shows it | evidently intended | confidence | as-written member | corrected member |
|---|---|---|---|---|---|---|
| elasticache/elasticache.go:80-82 | `parseURLs` reads `fields[2]` of every space-separated item without checking that the item has three fields | a reply that is only `END\r\n`: `parseNodes` answers "", whose single item "" has one field, so `fields[2]` is out of range and `ClusterNodes` panics | a short or empty node list is reported as an error | not executed | Elasticache.ParseURLsAsWritten, Elasticache.EndOnlyReplyHasNoPortField | Elasticache.ParseURLs |
| handlers/command.go:210 | the body length is assembled as an `int32`, and 24 is added in `int32` arithmetic | a header whose byte 8 is 0x80 (body length 2^31) gives the size -2147483624, so `dst[:size]` is out of range | the length is read as an unsigned 32-bit number and the size is 24 plus it | not executed | Wire.SizeAsWrittenInRange, Wire.NegativeSizeAsWritten | Wire.MessageSize |

In the first row, `Elasticache.ParseURLs` is the corrected definition. It
reports `MissingFields` for a short item, and the rest of the model uses it.
`Elasticache.ParseURLsAsWritten` proves that the unguarded loop agrees with it
wherever the loop is defined. In the second row, `Wire.MessageSize` is the
corrected size, and `Wire.ReadWireMessage` uses it. `Wire.SizeAsWritten` is
the source's computation: `Wire.SizeAsWrittenInRange` proves that it agrees
with the corrected size for body lengths up to 2^31 - 25, and
`Wire.NegativeSizeAsWritten` exhibits the input where it does not.

=== FILE: config_server.dfy ===
/** The fake ElastiCache configuration server (`ConfigConnection`): bytes read
    from a client accumulate in a buffer, every complete CRLF-terminated command
    is taken off its front, and `stats` and `config get cluster` are answered. */
module ConfigServer {
  import opened Results
  import opened Text
  import opened Decimal

  const CRLF: string := "\r\n"

  const StatsReply: string := "STAT version 1.6.0\nEND\n"

  /** The reply to `config get cluster`: a header giving the byte length of the
      node list, the config version 1, the node list, an empty line and `END`. */
  function ClusterReply(configs: string): string {
    Header(configs) + "\n1\n" + configs + "\n\nEND\r\n"
  }

  /** The header line of a cluster reply, giving the length of the node list. */
  function Header(configs: string): string {
    "CONFIG cluster 0 " + NatToDecimal(|configs|)
  }

  /** The answer to one command; any other command is dropped silently. */
  function Reply(command: string, configs: string): Option<string> {
    if command == "stats" then Some(StatsReply)
    else if command == "config get cluster" then Some(ClusterReply(configs))
    else None
  }

  /** The replies to a run of commands, in command order. */
  function Replies(commands: seq<string>, configs: string): (r: seq<string>)
    ensures |r| <= |commands|
  {
    if |commands| == 0 then []
    else
      match Reply(commands[0], configs)
      case Some(out) => [out] + Replies(commands[1..], configs)
      case None => Replies(commands[1..], configs)
  }

  lemma {:induction false} RepliesAppend(a: seq<string>, b: seq<string>, configs: string)
    ensures Replies(a + b, configs) == Replies(a, configs) + Replies(b, configs)
    decreases |a|
  {
    if |a| == 0 {
      assert a + b == b;
    } else {
      assert (a + b)[0] == a[0] && (a + b)[1..] == a[1..] + b;
      RepliesAppend(a[1..], b, configs);
    }
  }

  /** A carriage return immediately followed by a line feed at position `j`. */
  predicate CRLFAt(s: string, j: int) {
    0 <= j && j + 1 < |s| && s[j] == '\r' && s[j + 1] == '\n'
  }

  lemma CRLFAtIff(s: string, j: int)
    ensures OccursAt(s, CRLF, j) <==> CRLFAt(s, j)
  {
    if CRLFAt(s, j) {
      assert s[j..j + 2] == CRLF;
    }
    if OccursAt(s, CRLF, j) {
      assert s[j] == s[j..j + 2][0] && s[j + 1] == s[j..j + 2][1];
    }
  }

  predicate NoCRLF(s: string) {
    forall j :: 0 <= j < |s| ==> !CRLFAt(s, j)
  }

  /** Commands as they appear on the wire: each followed by CRLF. */
  function Delimited(commands: seq<string>): string {
    if |commands| == 0 then "" else commands[0] + CRLF + Delimited(commands[1..])
  }

  lemma {:induction false} DelimitedAppend(a: seq<string>, b: seq<string>)
    ensures Delimited(a + b) == Delimited(a) + Delimited(b)
    decreases |a|
  {
    if |a| == 0 {
      assert a + b == b;
    } else {
      assert (a + b)[0] == a[0] && (a + b)[1..] == a[1..] + b;
      DelimitedAppend(a[1..], b);
    }
  }

  /** The first CRLF of `buf`, as `strings.Index` finds it: the text before it
      has none, and -1 means the whole buffer has none. */
  lemma FirstCRLF(buf: string)
    ensures var i := IndexOf(buf, CRLF);
      (i < 0 ==> NoCRLF(buf))
      && (i >= 0 ==> CRLFAt(buf, i) && NoCRLF(buf[..i]))
  {
    var i := IndexOf(buf, CRLF);
    if i < 0 {
      forall j | 0 <= j < |buf|
        ensures !CRLFAt(buf, j)
      {
        CRLFAtIff(buf, j);
      }
    } else {
      CRLFAtIff(buf, i);
      forall j | 0 <= j < i
        ensures !CRLFAt(buf[..i], j)
      {
        CRLFAtIff(buf, j);
      }
    }
  }

  /** A CRLF-free command followed by CRLF: the first CRLF is the one after it. */
  lemma FirstCRLFAfter(command: string, tail: string)
    requires NoCRLF(command)
    ensures IndexOf(command + CRLF + tail, CRLF) == |command|
  {
    var s := command + CRLF + tail;
    var i := IndexOf(s, CRLF);
    CRLFAtIff(s, |command|);
    assert i >= 0 && i <= |command|;
    CRLFAtIff(s, i);
    forall j | 0 <= j < |command|
      ensures !CRLFAt(s, j)
    {
      if j + 1 < |command| {
        assert s[j] == command[j] && s[j + 1] == command[j + 1];
        assert !CRLFAt(command, j);
      } else {
        assert s[|command|..|command| + 2] == CRLF;
        assert s[j + 1] == '\r';
      }
    }
  }

  /** The inner loop of `ConfigConnection` as a function: every complete command
      at the front of `buf`, and what is left after the last CRLF. */
  function SplitCommands(buf: string): (seq<string>, string)
    decreases |buf|
  {
    var i := IndexOf(buf, CRLF);
    if i < 0 then ([], buf)
    else
      var rest := SplitCommands(buf[i + 2..]);
      ([buf[..i]] + rest.0, rest.1)
  }

  /** What `SplitCommands` takes off is the front of the buffer, command by
      command, each free of CRLF, and the CRLF-free remainder is kept. */
  lemma {:induction false} SplitCommandsSound(buf: string)
    ensures Delimited(SplitCommands(buf).0) + SplitCommands(buf).1 == buf
    ensures NoCRLF(SplitCommands(buf).1)
    ensures forall k :: 0 <= k < |SplitCommands(buf).0| ==> NoCRLF(SplitCommands(buf).0[k])
    decreases |buf|
  {
    var i := IndexOf(buf, CRLF);
    FirstCRLF(buf);
    if i >= 0 {
      var rest := SplitCommands(buf[i + 2..]);
      SplitCommandsSound(buf[i + 2..]);
      var commands := [buf[..i]] + rest.0;
      assert SplitCommands(buf) == (commands, rest.1);
      DelimitOne(buf[..i], rest.0);
      Cut(buf, i);
      calc {
        Delimited(commands) + rest.1;
        (buf[..i] + CRLF + Delimited(rest.0)) + rest.1;
        { AssocFour(buf[..i], CRLF, Delimited(rest.0), rest.1); }
        buf[..i] + CRLF + (Delimited(rest.0) + rest.1);
        buf;
      }
      forall k | 0 <= k < |commands|
        ensures NoCRLF(commands[k])
      {
        if k > 0 {
          assert commands[k] == rest.0[k - 1];
        }
      }
    }
  }

  lemma DelimitOne(command: string, more: seq<string>)
    ensures Delimited([command] + more) == command + CRLF + Delimited(more)
  {
    assert ([command] + more)[1..] == more;
  }

  /** A buffer is the text before a CRLF, the CRLF, and the text after it. */
  lemma Cut(buf: string, i: nat)
    requires CRLFAt(buf, i)
    ensures buf == buf[..i] + CRLF + buf[i + 2..]
  {
  }

  lemma AssocFour(a: string, b: string, c: string, d: string)
    ensures (a + b + c) + d == a + b + (c + d)
  {
  }

  /** One turn of the inner loop: taking the command before the first CRLF off
      the front of the remainder keeps `Delimited(taken) + rest` equal to the buffer. */
  lemma TakeOne(taken: seq<string>, rest: string, i: nat)
    requires CRLFAt(rest, i)
    ensures Delimited(taken + [rest[..i]]) + rest[i + 2..] == Delimited(taken) + rest
  {
    DelimitedAppend(taken, [rest[..i]]);
    DelimitOne(rest[..i], []);
    Cut(rest, i);
    calc {
      Delimited(taken + [rest[..i]]) + rest[i + 2..];
      (Delimited(taken) + (rest[..i] + CRLF + "")) + rest[i + 2..];
      { assert rest[..i] + CRLF + "" == rest[..i] + CRLF; }
      Delimited(taken) + (rest[..i] + CRLF + rest[i + 2..]);
      Delimited(taken) + rest;
    }
  }

  /** CRLF delimiting is unambiguous: CRLF-free commands, each followed by CRLF, then a CRLF-free
      remainder are split back into exactly those commands and that remainder. */
  lemma {:induction false} SplitDelimited(commands: seq<string>, rest: string)
    requires forall i :: 0 <= i < |commands| ==> NoCRLF(commands[i])
    requires NoCRLF(rest)
    ensures SplitCommands(Delimited(commands) + rest) == (commands, rest)
    decreases |commands|
  {
    var buf := Delimited(commands) + rest;
    if |commands| == 0 {
      assert buf == rest;
      FirstCRLF(buf);
    } else {
      var c := commands[0];
      var tail := Delimited(commands[1..]) + rest;
      assert buf == c + CRLF + tail;
      FirstCRLFAfter(c, tail);
      assert buf[|c| + 2..] == tail;
      assert buf[..|c|] == c;
      SplitDelimited(commands[1..], rest);
      assert [c] + commands[1..] == commands;
    }
  }

  /** All bytes of the chunks read, in order. */
  function Concat(chunks: seq<string>): string {
    if |chunks| == 0 then "" else Concat(chunks[..|chunks| - 1]) + chunks[|chunks| - 1]
  }

  /** The inner loop of `ConfigConnection`: answer every complete command at the
      front of `buf`, in order, and keep the bytes after the last CRLF. */
  method Drain(buf: string, configs: string) returns (writes: seq<string>, rest: string)
    ensures rest == SplitCommands(buf).1
    ensures writes == Replies(SplitCommands(buf).0, configs)
  {
    writes := [];
    rest := buf;
    ghost var taken: seq<string> := [];
    while true
      invariant Delimited(taken) + rest == buf
      invariant forall k :: 0 <= k < |taken| ==> NoCRLF(taken[k])
      invariant writes == Replies(taken, configs)
      decreases |rest|
    {
      var i := IndexOf(rest, CRLF);
      FirstCRLF(rest);
      if i < 0 {
        SplitDelimited(taken, rest);
        break;
      }
      var command := rest[..i];
      TakeOne(taken, rest, i);
      RepliesAppend(taken, [command], configs);
      var reply := Reply(command, configs);
      if reply.Some? {
        writes := writes + [reply.value];
      }
      rest := rest[i + 2..];
      taken := taken + [command];
    }
  }

  /** One turn of the outer loop: appending a read to the buffer and draining it
      extends the handled commands and the stream read so far alike. */
  lemma ServeStep(handled: seq<string>, buf: string, chunk: string, done: string, taken: seq<string>, rest: string)
    requires Delimited(handled) + buf == done
    requires Delimited(taken) + rest == buf + chunk
    ensures Delimited(handled + taken) + rest == done + chunk
  {
    DelimitedAppend(handled, taken);
    calc {
      Delimited(handled + taken) + rest;
      (Delimited(handled) + Delimited(taken)) + rest;
      Delimited(handled) + (Delimited(taken) + rest);
      Delimited(handled) + (buf + chunk);
      (Delimited(handled) + buf) + chunk;
    }
  }

  /** `ConfigConnection` over a connection whose successive reads return `chunks`
      (after which the read fails and the handler returns): the replies written,
      and the bytes of an incomplete command still buffered. Whatever the
      chunking, the replies are those to the complete commands of the whole
      byte stream, in order, and the buffer keeps exactly the unterminated tail. */
  method Serve(chunks: seq<string>, configs: string) returns (writes: seq<string>, buf: string)
    ensures writes == Replies(SplitCommands(Concat(chunks)).0, configs)
    ensures buf == SplitCommands(Concat(chunks)).1
  {
    writes := [];
    buf := "";
    ghost var handled: seq<string> := [];
    var k := 0;
    while k < |chunks|
      invariant 0 <= k <= |chunks|
      invariant Delimited(handled) + buf == Concat(chunks[..k])
      invariant forall i :: 0 <= i < |handled| ==> NoCRLF(handled[i])
      invariant NoCRLF(buf)
      invariant writes == Replies(handled, configs)
    {
      assert chunks[..k + 1][..k] == chunks[..k];
      var more, rest := Drain(buf + chunks[k], configs);
      ghost var taken := SplitCommands(buf + chunks[k]).0;
      SplitCommandsSound(buf + chunks[k]);
      ServeStep(handled, buf, chunks[k], Concat(chunks[..k]), taken, rest);
      assert Concat(chunks[..k + 1]) == Concat(chunks[..k]) + chunks[k];
      RepliesAppend(handled, taken, configs);
      handled := handled + taken;
      writes := writes + more;
      buf := rest;
      k := k + 1;
    }
    assert chunks[..k] == chunks;
    SplitDelimited(handled, buf);
  }
}

=== FILE: decimal.dfy ===
/** Decimal integers as Go prints and parses them: `fmt.Sprintf("%d", n)` and
    `strconv.Atoi` (base 10, 64-bit `int`). */
module Decimal {
  import opened Results

  const MinInt64: int := -0x8000_0000_0000_0000
  const MaxInt64: int := 0x7fff_ffff_ffff_ffff

  predicate IsDigit(c: char) { '0' <= c <= '9' }

  predicate AllDigits(s: string) {
    forall i :: 0 <= i < |s| ==> IsDigit(s[i])
  }

  function DigitChar(d: nat): (c: char)
    requires d < 10
    ensures IsDigit(c)
  {
    (('0' as int) + d) as char
  }

  function DigitValue(c: char): (d: nat)
    requires IsDigit(c)
    ensures d < 10 && DigitChar(d) == c
  {
    (c as int) - ('0' as int)
  }

  /** The number a string of decimal digits denotes (most significant first). */
  function Value(s: string): nat
    requires AllDigits(s)
  {
    if |s| == 0 then 0 else Value(s[..|s| - 1]) * 10 + DigitValue(s[|s| - 1])
  }

  /** `%d` of a non-negative number: its shortest digit string, which reads back as `n`. */
  function NatToDecimal(n: nat): (s: string)
    ensures |s| >= 1 && AllDigits(s)
    ensures |s| > 1 ==> s[0] != '0'
    ensures Value(s) == n
  {
    if n < 10 then [DigitChar(n)]
    else
      var high := NatToDecimal(n / 10);
      var s := high + [DigitChar(n % 10)];
      assert s[..|s| - 1] == high;
      s
  }

  /** `%d` of any integer: a minus sign before the digits of a negative number. */
  function IntToDecimal(i: int): (s: string)
    ensures |s| >= 1
    ensures i < 0 <==> s[0] == '-'
    ensures i >= 0 ==> s == NatToDecimal(i)
    ensures i < 0 ==> s[1..] == NatToDecimal(-i)
  {
    if i < 0 then "-" + NatToDecimal(-i) else NatToDecimal(i)
  }

  /** `strconv.Atoi`: an optional sign and at least one digit, with a value that
      fits the 64-bit `int`; anything else (including "") is an error. */
  function Atoi(s: string): (r: Option<int>)
    ensures r.Some? ==> MinInt64 <= r.value <= MaxInt64
    ensures r.Some? ==> |s| >= 1 && (IsDigit(s[0]) || s[0] == '-' || s[0] == '+')
    ensures |s| == 0 ==> r.None?
  {
    if |s| == 0 then None
    else
      var digits := if s[0] == '-' || s[0] == '+' then s[1..] else s;
      if |digits| == 0 || !AllDigits(digits) then None
      else
        var v: int := if s[0] == '-' then 0 - Value(digits) as int else Value(digits);
        if MinInt64 <= v <= MaxInt64 then Some(v) else None
  }

  /** `k` zero digits. */
  function Zeros(k: nat): (z: string)
    ensures |z| == k
    ensures forall i :: 0 <= i < k ==> z[i] == '0'
  {
    seq(k, _ => '0')
  }

  /** `t` is `%d` of `n` behind some leading zeros. */
  predicate Padded(t: string, n: nat) {
    var m := NatToDecimal(n);
    |m| <= |t| && t == Zeros(|t| - |m|) + m
  }

  /** The texts that spell `v` for `strconv.Atoi`: `%d` of its magnitude behind
      leading zeros, preceded by nothing or `+` when `v` is not negative, or by
      `-` when it is not positive. */
  predicate Spells(s: string, v: int) {
    || (v >= 0 && Padded(s, v))
    || (v >= 0 && |s| > 0 && s[0] == '+' && Padded(s[1..], v))
    || (v <= 0 && |s| > 0 && s[0] == '-' && Padded(s[1..], -v))
  }

  /** Printing with `%d` and parsing with `strconv.Atoi` round-trips every 64-bit integer. */
  lemma AtoiOfDecimal(i: int)
    requires MinInt64 <= i <= MaxInt64
    ensures Atoi(IntToDecimal(i)) == Some(i)
  {
    var s := IntToDecimal(i);
    if i < 0 {
      assert s[1..] == NatToDecimal(-i);
    }
  }

  /** Two numbers print differently, so `%d` loses nothing. */
  lemma DecimalInjective(i: int, j: int)
    requires MinInt64 <= i <= MaxInt64 && MinInt64 <= j <= MaxInt64
    requires IntToDecimal(i) == IntToDecimal(j)
    ensures i == j
  {
    AtoiOfDecimal(i);
    AtoiOfDecimal(j);
  }

  /** `strconv.Atoi` accepts exactly the spellings of the 64-bit integers, and
      returns the integer spelled. */
  lemma AtoiSpells(s: string, v: int)
    ensures Atoi(s) == Some(v) <==> MinInt64 <= v <= MaxInt64 && Spells(s, v)
  {
    if Atoi(s) == Some(v) {
      AtoiSpelled(s);
    }
    if MinInt64 <= v <= MaxInt64 && Spells(s, v) {
      SpelledAtoi(s, v);
    }
  }

  /** A sign or leading zeros do not change the port read: `+7` and `007` are
      both 7, `-0` is 0; a trailing non-digit or a doubled sign is refused. */
  lemma AtoiExamples()
    ensures Atoi("+7") == Some(7) && Atoi("007") == Some(7) && Atoi("-0") == Some(0)
    ensures Atoi("11211x") == None && Atoi("+-7") == None && Atoi("+") == None
  {
    assert Atoi("+7") == Some(7) by {
      assert "+7"[1..] == Zeros(0) + NatToDecimal(7);
      SpelledAtoi("+7", 7);
    }
    assert Atoi("007") == Some(7) by {
      assert "007" == Zeros(2) + NatToDecimal(7);
      SpelledAtoi("007", 7);
    }
    assert Atoi("-0") == Some(0) by {
      assert "-0"[1..] == Zeros(0) + NatToDecimal(0);
      SpelledAtoi("-0", 0);
    }
    assert Atoi("11211x") == None by {
      assert !IsDigit("11211x"[5]);
    }
    assert Atoi("+-7") == None by {
      assert !IsDigit("+-7"[1]);
    }
  }

  /** What `strconv.Atoi` accepts is a spelling of what it returns. */
  lemma AtoiSpelled(s: string)
    requires Atoi(s).Some?
    ensures Spells(s, Atoi(s).value)
  {
    var digits := if s[0] == '-' || s[0] == '+' then s[1..] else s;
    Canonical(digits);
  }

  /** A spelling of a 64-bit integer is read back as that integer. */
  lemma SpelledAtoi(s: string, v: int)
    requires MinInt64 <= v <= MaxInt64 && Spells(s, v)
    ensures Atoi(s) == Some(v)
  {
    if v >= 0 && Padded(s, v) {
      PaddedValue(s, v);
      assert IsDigit(s[0]);
    } else if v >= 0 && |s| > 0 && s[0] == '+' && Padded(s[1..], v) {
      PaddedValue(s[1..], v);
    } else {
      PaddedValue(s[1..], -v);
    }
  }

  /** A padded `%d` text is all digits, at least one, and denotes its number. */
  lemma PaddedValue(t: string, n: nat)
    requires Padded(t, n)
    ensures |t| >= 1 && AllDigits(t) && Value(t) == n
  {
    var m := NatToDecimal(n);
    ValueAfterZeros(|t| - |m|, m);
  }

  lemma {:induction false} ValueOfZeros(k: nat)
    ensures Value(Zeros(k)) == 0
  {
    if k > 0 {
      assert Zeros(k)[..k - 1] == Zeros(k - 1);
      ValueOfZeros(k - 1);
    }
  }

  /** Leading zeros do not change the number a digit string denotes. */
  lemma {:induction false} ValueAfterZeros(k: nat, t: string)
    requires AllDigits(t)
    ensures AllDigits(Zeros(k) + t) && Value(Zeros(k) + t) == Value(t)
    decreases |t|
  {
    var u := Zeros(k) + t;
    assert forall i :: 0 <= i < |u| ==> IsDigit(u[i]) by {
      forall i | 0 <= i < |u|
        ensures IsDigit(u[i])
      {
        if i >= k {
          assert u[i] == t[i - k];
        }
      }
    }
    if |t| == 0 {
      assert u == Zeros(k);
      ValueOfZeros(k);
    } else {
      var n := |t| - 1;
      assert u[..|u| - 1] == Zeros(k) + t[..n];
      assert u[|u| - 1] == t[n];
      ValueAfterZeros(k, t[..n]);
    }
  }

  function Pow10(n: nat): (p: nat)
    ensures p >= 1
  {
    if n == 0 then 1 else 10 * Pow10(n - 1)
  }

  /** A digit string of length `n` denotes less than 10^n, and at least 10^(n-1)
      when it does not start with a zero. */
  lemma {:induction false} ValueBounds(d: string)
    requires AllDigits(d)
    ensures Value(d) < Pow10(|d|)
    ensures |d| >= 1 && d[0] != '0' ==> Value(d) >= Pow10(|d| - 1)
    decreases |d|
  {
    if |d| > 0 {
      var n := |d| - 1;
      var high := d[..n];
      ValueBounds(high);
      assert Value(d) == Value(high) * 10 + DigitValue(d[n]);
      assert Value(d) < Pow10(|d|) by {
        assert Value(high) + 1 <= Pow10(n);
        assert (Value(high) + 1) * 10 <= Pow10(n) * 10;
      }
      if n >= 1 && d[0] != '0' {
        assert high[0] == d[0];
        assert Value(high) * 10 >= Pow10(n - 1) * 10;
      } else if n == 0 && d[0] != '0' {
        assert DigitValue(d[0]) >= 1;
      }
    }
  }

  /** Two digit strings of the same length that denote the same number are equal. */
  lemma {:induction false} SameValueSameDigits(a: string, b: string)
    requires AllDigits(a) && AllDigits(b) && |a| == |b|
    requires Value(a) == Value(b)
    ensures a == b
    decreases |a|
  {
    if |a| > 0 {
      var n := |a| - 1;
      var x, y := DigitValue(a[n]), DigitValue(b[n]);
      var p, q := Value(a[..n]), Value(b[..n]);
      assert p * 10 + x == q * 10 + y;
      DivMod10(p, x);
      DivMod10(q, y);
      assert a[n] == DigitChar(x) == b[n];
      SameValueSameDigits(a[..n], b[..n]);
      assert a == a[..n] + [a[n]];
      assert b == b[..n] + [b[n]];
    }
  }

  /** Every non-empty digit string is `%d` of its number behind leading zeros. */
  lemma {:induction false} Canonical(d: string)
    requires AllDigits(d) && |d| >= 1
    ensures Padded(d, Value(d))
    decreases |d|
  {
    if |d| > 1 && d[0] == '0' {
      var rest := d[1..];
      assert d == Zeros(1) + rest;
      ValueAfterZeros(1, rest);
      Canonical(rest);
      PadOneMore(rest, Value(d));
    } else {
      Shortest(d);
      assert d == Zeros(0) + d;
    }
  }

  /** One more leading zero keeps a text padded. */
  lemma PadOneMore(t: string, n: nat)
    requires Padded(t, n)
    ensures Padded(Zeros(1) + t, n)
  {
    var m := NatToDecimal(n);
    var k := |t| - |m|;
    assert Zeros(1) + Zeros(k) == Zeros(k + 1);
    assert Zeros(1) + t == Zeros(k + 1) + m;
  }

  /** A digit string without a leading zero is `%d` of its number. */
  lemma Shortest(d: string)
    requires AllDigits(d) && |d| >= 1 && (|d| == 1 || d[0] != '0')
    ensures NatToDecimal(Value(d)) == d
  {
    var m := NatToDecimal(Value(d));
    SameLength(d);
    SameValueSameDigits(d, m);
  }

  /** A digit string without a leading zero is as long as `%d` of its number. */
  lemma SameLength(d: string)
    requires AllDigits(d) && |d| >= 1 && (|d| == 1 || d[0] != '0')
    ensures |NatToDecimal(Value(d))| == |d|
  {
    var v := Value(d);
    var m := NatToDecimal(v);
    assert v < Pow10(|d|) && (|d| == 1 || Pow10(|d| - 1) <= v) by {
      ValueBounds(d);
    }
    assert v < Pow10(|m|) && (|m| == 1 || Pow10(|m| - 1) <= v) by {
      ValueBounds(m);
    }
    DigitCount(|d|, |m|, v);
  }

  /** A number has one digit count: lengths `a` and `b` that both bracket `v`
      between powers of ten are equal. */
  lemma DigitCount(a: nat, b: nat, v: nat)
    requires a >= 1 && v < Pow10(a) && (a == 1 || Pow10(a - 1) <= v)
    requires b >= 1 && v < Pow10(b) && (b == 1 || Pow10(b - 1) <= v)
    ensures a == b
  {
    if b >= 2 {
      PowOrder(a, b - 1);
    }
    if a >= 2 {
      PowOrder(b, a - 1);
    }
  }

  /** Powers of ten grow strictly: 10^i <= 10^j exactly when i <= j. */
  lemma {:induction false} PowOrder(i: nat, j: nat)
    ensures i <= j <==> Pow10(i) <= Pow10(j)
    decreases i + j
  {
    if i > 0 && j > 0 {
      PowOrder(i - 1, j - 1);
    } else if i > 0 {
      assert Pow10(i) == 10 * Pow10(i - 1);
    }
  }

  /** Appending digit `x` to `p`: the last digit is `x`, the rest is `p`. */
  lemma DivMod10(p: nat, x: nat)
    requires x < 10
    ensures (p * 10 + x) % 10 == x && (p * 10 + x) / 10 == p
  {
  }
}

=== FILE: discovery.dfy ===
/** The two halves of Auto Discovery put together: the reply the fake
    configuration server writes for `config get cluster`, carrying the entries
    `createListeners` advertises, read back by the discovery client. */
module Discovery {
  import opened Results
  import opened Text
  import opened Decimal
  import opened LineScanner
  import opened Elasticache
  import opened ConfigServer
  import opened Settings
  import opened Listeners

  /** A cluster reply is five newline-terminated lines: the header, the version,
      the node list, an empty line and `END` followed by a carriage return. */
  lemma ClusterReplyLines(configs: string)
    ensures ClusterReply(configs) == Terminated([Header(configs), "1", configs, "", "END\r"])
  {
    var lines := [Header(configs), "1", configs, "", "END\r"];
    assert Terminated(lines[4..]) == "END\r\n" by {
      assert lines[4..][1..] == [];
    }
    assert Terminated(lines[3..]) == "\n" + "END\r\n" by {
      assert lines[3..][1..] == lines[4..];
    }
    assert Terminated(lines[2..]) == configs + "\n" + "\n" + "END\r\n" by {
      assert lines[2..][1..] == lines[3..];
    }
    assert Terminated(lines[1..]) == "1\n" + configs + "\n" + "\n" + "END\r\n" by {
      assert lines[1..][1..] == lines[2..];
    }
    assert lines[1..] == lines[1..];
  }

  /** The discovery client reads back exactly the node list the server sent,
      whatever the reader does after the reply (less a trailing carriage return,
      which the line scanner drops). */
  lemma ClusterReplyNodesLine(configs: string, fails: bool)
    requires '\n' !in configs
    ensures NodesLine(Stream(ClusterReply(configs), fails)) == Success(DropCR(configs))
  {
    var lines := [Header(configs), "1", configs, "", "END\r"];
    ClusterReplyLines(configs);
    DecimalHasNoSeparator(|configs|, '\n');
    assert '\n' !in Header(configs);
    ScanTerminatedLines(lines);
    TerminatedClosed(lines);
    var scanned := DropCRs(lines);
    assert scanned[0] != "END" by {
      assert scanned[0][0] == 'C';
    }
    assert scanned[4] == "END";
    assert EndIndex(scanned) >= 2 by {
      assert EndIndex(scanned) == 1 + EndIndex(scanned[1..]);
      assert scanned[1..][0] == "1";
    }
  }

  /** A whole `config get cluster` request in the buffer is one complete
      command, answered with the cluster reply, and nothing is left over. */
  lemma RequestAnswered(configs: string)
    ensures SplitCommands(ConfigRequest) == (["config get cluster"], "")
    ensures Replies(["config get cluster"], configs) == [ClusterReply(configs)]
  {
    var command := "config get cluster";
    assert NoCRLF(command);
    assert Delimited([command]) + "" == ConfigRequest;
    SplitDelimited([command], "");
  }

  /** The addresses discovery yields for the first `n` TCP proxies:
      `localhost:<port>` for each local port, in index order. */
  function TcpAddresses(cfg: Config, n: nat): (r: seq<string>)
    ensures |r| == n
    ensures forall i :: 0 <= i < n ==> r[i] == "localhost:" + IntToDecimal(LocalPort(cfg, i))
  {
    seq(n, i requires 0 <= i < n => "localhost:" + IntToDecimal(LocalPort(cfg, i)))
  }

  /** The advertised local ports all fit in Go's 64-bit `int`. */
  predicate PortsFit(cfg: Config, n: nat) {
    MinInt64 <= cfg.localPortStart && cfg.localPortStart + n - 1 <= MaxInt64
  }

  /** In TCP mode the space-separated node list parses back into one
      `localhost:<port>` address per proxy, in order. */
  lemma TcpEntriesParse(cfg: Config, n: nat)
    requires !UnixMode(cfg.network) && n >= 1 && PortsFit(cfg, n)
    ensures ParseURLs(Join(ConfigEntries(cfg, n), ' ')) == Success(TcpAddresses(cfg, n))
  {
    var entries := ConfigEntries(cfg, n);
    var urls := TcpAddresses(cfg, n);
    forall i | 0 <= i < n
      ensures ParseItem(entries[i]) == Success(urls[i])
    {
      TcpEntryParses(cfg, i);
    }
    EntriesOfJoined(cfg, n);
    CollectAll(ParseItem, entries, urls);
  }

  /** The entry of a TCP proxy parses to `localhost:<port>`. */
  lemma TcpEntryParses(cfg: Config, i: nat)
    requires !UnixMode(cfg.network) && MinInt64 <= LocalPort(cfg, i) <= MaxInt64
    ensures ParseItem(ConfigEntry(cfg, i)) == Success("localhost:" + IntToDecimal(LocalPort(cfg, i)))
  {
    var d := IntToDecimal(LocalPort(cfg, i));
    TcpEntryFields(cfg, i);
    AtoiOfDecimal(LocalPort(cfg, i));
    assert ParseItem(ConfigEntry(cfg, i)) == Success("localhost" + ":" + d);
    assert "localhost" + ":" + d == "localhost:" + d;
  }

  /** The node list holds no newline, as long as a socket path has none. */
  lemma JoinedHasNoNewline(cfg: Config, n: nat)
    requires UnixMode(cfg.network) ==> '\n' !in cfg.localSocketPrefix && '\n' !in cfg.localSocketSuffix
    ensures '\n' !in Join(ConfigEntries(cfg, n), ' ')
  {
    var entries := ConfigEntries(cfg, n);
    forall i | 0 <= i < n
      ensures '\n' !in entries[i]
    {
      EntryHasNoSpace(cfg, i, '\n');
    }
    JoinWithoutSeparator(entries, ' ', '\n');
  }

  /** End to end in TCP mode: discovering through the config listener's reply
      finds every proxy, in upstream order. */
  lemma DiscoverTcpProxies(cfg: Config, n: nat, fails: bool)
    requires !UnixMode(cfg.network) && n >= 1 && PortsFit(cfg, n)
    ensures DiscoverFrom(Stream(ClusterReply(Join(ConfigEntries(cfg, n), ' ')), fails)) == Success(TcpAddresses(cfg, n))
  {
    var configs := Join(ConfigEntries(cfg, n), ' ');
    JoinedHasNoNewline(cfg, n);
    ClusterReplyNodesLine(configs, fails);
    LastEntryNotCR(cfg, n);
    TcpEntriesParse(cfg, n);
  }

  /** A node list whose last entry ends in something other than a carriage
      return is left whole by the scanner. */
  lemma LastEntryNotCR(cfg: Config, n: nat)
    requires n >= 1
    ensures DropCR(Join(ConfigEntries(cfg, n), ' ')) == Join(ConfigEntries(cfg, n), ' ')
  {
    var entries := ConfigEntries(cfg, n);
    EntryEnd(cfg, n - 1);
    JoinKeepsLastLine(entries, ' ');
  }

  /** A join whose last piece ends in something other than a carriage return
      is left whole by the scanner. */
  lemma JoinKeepsLastLine(parts: seq<string>, sep: char)
    requires |parts| >= 1
    requires var last := parts[|parts| - 1]; |last| > 0 && last[|last| - 1] != '\r'
    ensures DropCR(Join(parts, sep)) == Join(parts, sep)
  {
    var last := parts[|parts| - 1];
    JoinEndsWithLast(parts, sep);
    var s := Join(parts, sep);
    assert s[|s| - 1] == s[|s| - |last|..][|last| - 1];
  }

  /** An entry ends in a port digit (TCP) or in a bar (unix sockets). */
  lemma EntryEnd(cfg: Config, index: nat)
    ensures var e := ConfigEntry(cfg, index); |e| > 0 && e[|e| - 1] != '\r'
  {
    if !UnixMode(cfg.network) {
      var d := IntToDecimal(LocalPort(cfg, index));
      var p := NatToDecimal(if LocalPort(cfg, index) < 0 then -LocalPort(cfg, index) else LocalPort(cfg, index));
      assert d[|d| - 1] == p[|p| - 1];
      assert IsDigit(p[|p| - 1]);
    }
  }

  /** In unix-socket mode the advertised entries have no port, so discovery
      through the config listener fails on the first one. */
  lemma DiscoverUnixProxiesFails(cfg: Config, n: nat, fails: bool)
    requires UnixMode(cfg.network) && n >= 1
    requires ' ' !in cfg.localSocketPrefix && ' ' !in cfg.localSocketSuffix
    requires '|' !in cfg.localSocketPrefix && '|' !in cfg.localSocketSuffix
    requires '\n' !in cfg.localSocketPrefix && '\n' !in cfg.localSocketSuffix
    ensures DiscoverFrom(Stream(ClusterReply(Join(ConfigEntries(cfg, n), ' ')), fails)) == Failure(InvalidPort(""))
  {
    var configs := Join(ConfigEntries(cfg, n), ' ');
    JoinedHasNoNewline(cfg, n);
    ClusterReplyNodesLine(configs, fails);
    LastEntryNotCR(cfg, n);
    EntriesOfJoined(cfg, n);
    UnixEntryFails(cfg);
    FirstFailure(ParseItem, ConfigEntries(cfg, n));
  }

  /** The first unix-socket entry is rejected for its empty port field. */
  lemma UnixEntryFails(cfg: Config)
    requires UnixMode(cfg.network)
    requires '|' !in cfg.localSocketPrefix && '|' !in cfg.localSocketSuffix
    ensures ParseItem(ConfigEntry(cfg, 0)) == Failure(InvalidPort(""))
  {
    var local := LocalAddress(cfg, 0);
    DecimalHasNoSeparator(0, '|');
    assert '|' !in local;
    UnixEntryRejected(local);
  }

}

=== FILE: elasticache.dfy ===
/** ElastiCache Auto Discovery client: completing the configuration endpoint with
    the default port, reading the `config get cluster` reply line by line, and
    turning its node line `host|ip|port host|ip|port …` into `host:port` addresses. */
module Elasticache {
  import opened Results
  import opened Text
  import opened Decimal
  import opened LineScanner

  /** The request the client writes to the configuration endpoint. */
  const ConfigRequest: string := "config get cluster\r\n"

  /** Auto Discovery replies list the nodes on their third line. */
  const NodesLineNumber: nat := 3

  datatype DiscoveryError =
    | ScanFailed                        // the reader failed before an END line was seen
    | InvalidPort(field: string)        // `strconv.Atoi` rejected an item's third field
    | MissingFields(item: string)       // an item with fewer than three `|`-separated fields

  lemma ContainsChar(s: string, c: char)
    ensures Contains(s, [c]) <==> c in s
  {
    ContainsIff(s, [c]);
    if c in s {
      var i :| 0 <= i < |s| && s[i] == c;
      assert OccursAt(s, [c], i);
    }
    if Contains(s, [c]) {
      var i :| OccursAt(s, [c], i);
      assert s[i] == s[i..i + 1][0];
    }
  }

  /** An endpoint without a port gets memcached's default port 11211; an endpoint
      that already names one (any `:`) is dialled as given. */
  function WithDefaultPort(endpoint: string): (r: string)
    ensures ':' in r
    ensures |r| >= |endpoint| && r[..|endpoint|] == endpoint
    ensures ':' in endpoint <==> r == endpoint
    ensures ':' !in endpoint ==> r[|endpoint|..] == ":11211"
  {
    ContainsChar(endpoint, ':');
    if !Contains(endpoint, ":") then endpoint + ":11211" else endpoint
  }

  /** Completing an endpoint twice changes nothing more. */
  lemma WithDefaultPortIdempotent(endpoint: string)
    ensures WithDefaultPort(WithDefaultPort(endpoint)) == WithDefaultPort(endpoint)
  {
  }

  /** The reply as a reader: its bytes, and whether the reader reports an error
      (other than EOF) once they are exhausted. */
  datatype Stream = Stream(data: string, fails: bool)

  /** Position of the first `END` line, or the number of lines when there is none. */
  function EndIndex(lines: seq<string>): (k: nat)
    ensures k <= |lines|
    ensures k < |lines| ==> lines[k] == "END"
    ensures forall j :: 0 <= j < k ==> lines[j] != "END"
  {
    if |lines| == 0 then 0
    else if lines[0] == "END" then 0
    else 1 + EndIndex(lines[1..])
  }

  /** Whether the scanner asks the reader for more bytes before the loop ends:
      either it ran out of lines without meeting `END`, or the `END` line is the
      last line and has no newline (`lastOpen`), which the scanner can deliver
      only after a further read reports the end of the input. Only then does a
      failing reader's error reach `scanner.Err()`. */
  predicate ReadsToEnd(lines: seq<string>, lastOpen: bool) {
    var k := EndIndex(lines);
    k == |lines| || (lastOpen && k == |lines| - 1)
  }

  /** What `parseNodes` answers, stated over the scanned lines: the loop reads lines
      up to and including the first `END`; the third line read is the answer, or ""
      when fewer than three were read; a reader error surfaces when the scanner had
      to read past the last line before the loop ended. */
  function NodesLineOf(lines: seq<string>, fails: bool, lastOpen: bool): Result<string, DiscoveryError> {
    var k := EndIndex(lines);
    if fails && ReadsToEnd(lines, lastOpen) then Failure(ScanFailed)
    else if NodesLineNumber - 1 < |lines| && NodesLineNumber - 1 <= k then Success(lines[NodesLineNumber - 1])
    else Success("")
  }

  function NodesLine(st: Stream): Result<string, DiscoveryError> {
    NodesLineOf(ScanLines(st.data), st.fails, OpenLast(st.data))
  }

  /** `parseNodes`: the scanning loop, counting lines, capturing line 3 and
      stopping at the first `END` (the capture is checked first). */
  method ParseNodes(st: Stream) returns (r: Result<string, DiscoveryError>)
    ensures r == NodesLine(st)
  {
    r := ScanNodesLine(ScanLines(st.data), st.fails, OpenLast(st.data));
  }

  /** The loop of `parseNodes` over the scanner's tokens, then the `scanner.Err()`
      test: the reader's error is recorded when the loop ran out of tokens, or when
      the token that ended it was the open last line. */
  method ScanNodesLine(lines: seq<string>, fails: bool, lastOpen: bool) returns (r: Result<string, DiscoveryError>)
    ensures r == NodesLineOf(lines, fails, lastOpen)
  {
    var response := "";
    var count := 0;
    var k := 0;
    var stopped := false;
    while k < |lines|
      invariant 0 <= k <= |lines|
      invariant count == k
      invariant response == (if NodesLineNumber <= k then lines[NodesLineNumber - 1] else "")
      invariant forall j :: 0 <= j < k ==> lines[j] != "END"
    {
      count := count + 1;
      if count == NodesLineNumber {
        response := lines[k];
      }
      if lines[k] == "END" {
        stopped := true;
        break;
      }
      k := k + 1;
    }
    if stopped {
      EndIndexAt(lines, k);
    }
    assert !stopped ==> k == |lines| && EndIndex(lines) == |lines|;
    if fails && (!stopped || (lastOpen && k == |lines| - 1)) {
      return Failure(ScanFailed);
    }
    return Success(response);
  }

  /** Lines after the first `END` are never inspected: dropping them leaves the
      answer unchanged, and a reader error behind them matters only when the
      `END` line is itself the open last line. */
  lemma NodesLineIgnoresAfterEnd(lines: seq<string>, fails: bool, lastOpen: bool)
    requires EndIndex(lines) < |lines|
    ensures var k := EndIndex(lines);
      NodesLineOf(lines, fails, lastOpen) == NodesLineOf(lines[..k + 1], fails, lastOpen && k == |lines| - 1)
    ensures var k := EndIndex(lines);
      !(lastOpen && k == |lines| - 1) ==> NodesLineOf(lines, fails, lastOpen) == NodesLineOf(lines[..k + 1], false, false)
  {
    var k := EndIndex(lines);
    var prefix := lines[..k + 1];
    EndIndexAt(prefix, k);
  }

  /** The first `END` line is where `EndIndex` points. */
  lemma EndIndexAt(lines: seq<string>, k: nat)
    requires k < |lines| && lines[k] == "END"
    requires forall j :: 0 <= j < k ==> lines[j] != "END"
    ensures EndIndex(lines) == k
  {
  }

  /** The third line is captured before the `END` test, so a third line reading
      `END` is itself the answer, unless it is the open last line of a failing
      reader. */
  lemma ThirdLineEnd(first: string, second: string, rest: seq<string>, fails: bool, lastOpen: bool)
    requires first != "END" && second != "END"
    ensures NodesLineOf([first, second, "END"] + rest, fails, lastOpen)
      == if fails && lastOpen && rest == [] then Failure(ScanFailed) else Success("END")
  {
    var lines := [first, second, "END"] + rest;
    EndIndexAt(lines, 2);
  }

  /** Fewer than three lines before the reply ends or reaches `END`: the answer is
      "", or the reader's error when the scanner read to the end. */
  lemma ShortReplyGivesEmpty(lines: seq<string>, fails: bool, lastOpen: bool)
    requires EndIndex(lines) < 2 || |lines| < 3
    ensures NodesLineOf(lines, fails, lastOpen)
      == if fails && ReadsToEnd(lines, lastOpen) then Failure(ScanFailed) else Success("")
  {
  }

  /** A reader error with no `END` line yields the error and no nodes line. */
  lemma ScanErrorWithoutEnd(lines: seq<string>, lastOpen: bool)
    requires forall i :: 0 <= i < |lines| ==> lines[i] != "END"
    ensures NodesLineOf(lines, true, lastOpen) == Failure(ScanFailed)
  {
  }

  /** A failing reader whose data ends in an `END` line without a newline yields
      the error, since the scanner reads once more to finish that line. */
  lemma UnterminatedEndFails(lines: seq<string>)
    requires forall i :: 0 <= i < |lines| ==> '\n' !in lines[i] && DropCR(lines[i]) != "END"
    ensures NodesLine(Stream(Terminated(lines) + "END", true)) == Failure(ScanFailed)
  {
    var data := Terminated(lines) + "END";
    assert ScanLines(data) == DropCRs(lines) + ["END"] by {
      ScanOpenLast(lines, "END");
      DropCRsEnd(lines);
    }
    assert OpenLast(data) by {
      OpenLastOf(Terminated(lines), "END");
    }
    EndLast(DropCRs(lines));
  }

  /** With the newline the `END` line ends the loop before the error is read: a
      failing reader gives the same answer as a reader that ends cleanly. */
  lemma TerminatedEndIgnoresError(lines: seq<string>)
    requires forall i :: 0 <= i < |lines| ==> '\n' !in lines[i] && DropCR(lines[i]) != "END"
    ensures var data := Terminated(lines + ["END"]);
      NodesLine(Stream(data, true)) == NodesLine(Stream(data, false))
  {
    var closed := lines + ["END"];
    var data := Terminated(closed);
    assert ScanLines(data) == DropCRs(lines) + ["END"] by {
      forall i | 0 <= i < |closed|
        ensures '\n' !in closed[i]
      {
        if i == |lines| {
          assert closed[i] == ['E', 'N', 'D'];
        }
      }
      ScanTerminatedLines(closed);
      DropCRsEnd(lines);
    }
    assert !OpenLast(data) by {
      TerminatedClosed(closed);
    }
    EndLast(DropCRs(lines));
    assert NodesLine(Stream(data, true)) == NodesLineOf(DropCRs(lines) + ["END"], true, false);
    assert NodesLine(Stream(data, false)) == NodesLineOf(DropCRs(lines) + ["END"], false, false);
  }

  /** Lines before a final `END`: the scanner read to the end only if that line was open. */
  lemma EndLast(before: seq<string>)
    requires forall i :: 0 <= i < |before| ==> before[i] != "END"
    ensures ReadsToEnd(before + ["END"], true)
    ensures !ReadsToEnd(before + ["END"], false)
  {
    EndIndexAt(before + ["END"], |before|);
  }

  lemma DropCRsEnd(lines: seq<string>)
    ensures DropCRs(lines + ["END"]) == DropCRs(lines) + ["END"]
  {
    assert DropCR("END") == "END";
  }

  /** One entry of the nodes line, `host|ip|port`: the address `host:port` with
      the port re-printed in decimal. An entry with fewer than three fields is an
      error here (the Go code indexes past the end; see `ParseURLsAsWritten`). */
  function ParseItem(item: string): Result<string, DiscoveryError> {
    var fields := Split(item, '|');
    if |fields| < 3 then Failure(MissingFields(item))
    else match Atoi(fields[2])
      case None => Failure(InvalidPort(fields[2]))
      case Some(port) => Success(fields[0] + ":" + IntToDecimal(port))
  }

  /** The address of a parsed item is its first field, a colon, and a decimal port
      that reads back as the number the third field denotes (so `+7` and `007`
      both become `7`, as `Decimal.AtoiExamples` shows). */
  lemma ParseItemAddress(item: string)
    requires ParseItem(item).Success?
    ensures var fields := Split(item, '|');
      var url := ParseItem(item).value;
      |url| > |fields[0]| && url[..|fields[0]| + 1] == fields[0] + ":"
      && Atoi(url[|fields[0]| + 1..]) == Atoi(fields[2])
  {
    var fields := Split(item, '|');
    var port := Atoi(fields[2]).value;
    var url := ParseItem(item).value;
    assert url == fields[0] + ":" + IntToDecimal(port);
    assert url[|fields[0]| + 1..] == IntToDecimal(port);
    AtoiOfDecimal(port);
  }

  /** `parseURLs` with a guard for short items: one address per space-separated
      item, in input order. It succeeds only when every item has the three fields
      the Go loop indexes, and otherwise reports an error instead of indexing past
      the end. */
  function ParseURLs(response: string): (r: Result<seq<string>, DiscoveryError>)
    ensures r.Success? ==> HasPortFields(response)
    ensures r.Success? ==> |r.value| == |Split(response, ' ')|
  {
    Collect(ParseItem, Split(response, ' '))
  }

  /** Every item of the nodes line has the three fields `parseURLs` indexes. */
  predicate HasPortFields(response: string) {
    var items := Split(response, ' ');
    forall i :: 0 <= i < |items| ==> |Split(items[i], '|')| >= 3
  }

  /** `parseURLs` as written: it reads `fields[2]` of every item unguarded, so it
      is defined only on replies whose items all have three fields. Where it is
      defined it agrees with `ParseURLs`. */
  method ParseURLsAsWritten(response: string) returns (r: Result<seq<string>, DiscoveryError>)
    requires HasPortFields(response)
    ensures r == ParseURLs(response)
  {
    r := ParseItemsAsWritten(Split(response, ' '));
  }

  /** A reply that is only `END` has no third line, so the nodes line is ""; its
      one item has a single field, so the unguarded `fields[2]` of `parseURLs`
      is out of range, while `ParseURLs` reports the short item. */
  lemma EndOnlyReplyHasNoPortField()
    ensures NodesLine(Stream("END\r\n", false)) == Success("")
    ensures !HasPortFields("")
    ensures DiscoverFrom(Stream("END\r\n", false)) == Failure(MissingFields(""))
  {
    EndOnlyScan();
    EndIndexAt(["END"], 0);
    EmptyResponse();
  }

  lemma EndOnlyScan()
    ensures ScanLines("END\r\n") == ["END"]
  {
    var lines := ["END\r"];
    assert Terminated(lines) == "END\r\n" by {
      assert lines[1..] == [];
    }
    ScanTerminatedLines(lines);
    var line := "END\r";
    assert line[|line| - 1] == '\r' && line[..|line| - 1] == "END";
    assert DropCRs(lines)[0] == "END";
  }

  lemma EmptyResponse()
    ensures Split("", ' ') == [""] && Split("", '|') == [""]
    ensures ParseURLs("") == Failure(MissingFields(""))
  {
  }

  /** The loop of `parseURLs` over the space-separated items. */
  method ParseItemsAsWritten(items: seq<string>) returns (r: Result<seq<string>, DiscoveryError>)
    requires forall i :: 0 <= i < |items| ==> |Split(items[i], '|')| >= 3
    ensures r == Collect(ParseItem, items)
  {
    var urls: seq<string> := [];
    var k := 0;
    assert items[0..] == items;
    ThenNothing(Collect(ParseItem, items));
    while k < |items|
      invariant 0 <= k <= |items|
      invariant Collect(ParseItem, items) == Then(urls, Collect(ParseItem, items[k..]))
    {
      var fields := Split(items[k], '|');
      var port := Atoi(fields[2]);
      ItemStep(items, k, urls);
      if port.None? {
        return Failure(InvalidPort(fields[2]));
      }
      var url := fields[0] + ":" + IntToDecimal(port.value);
      urls := urls + [url];
      k := k + 1;
    }
    assert Collect(ParseItem, items[k..]) == Success([]);
    assert urls + [] == urls;
    return Success(urls);
  }

  /** One turn of the item loop: a bad port ends the collection with its error,
      and a good one moves its address from the rest to the collected values. */
  lemma ItemStep(items: seq<string>, k: nat, urls: seq<string>)
    requires k < |items| && |Split(items[k], '|')| >= 3
    ensures var fields := Split(items[k], '|');
      var rest := Collect(ParseItem, items[k + 1..]);
      Then(urls, Collect(ParseItem, items[k..])) == match Atoi(fields[2])
        case None => Failure(InvalidPort(fields[2]))
        case Some(port) => Then(urls + [fields[0] + ":" + IntToDecimal(port)], rest)
  {
    var fields := Split(items[k], '|');
    CollectStep(ParseItem, items[k..]);
    assert items[k..][0] == items[k] && items[k..][1..] == items[k + 1..];
    if Atoi(fields[2]).Some? {
      var url := fields[0] + ":" + IntToDecimal(Atoi(fields[2]).value);
      assert ParseItem(items[k]) == Success(url);
      ThenAppend(urls, url, Collect(ParseItem, items[k + 1..]));
    }
  }

  /** The address produced for an entry ignores its middle field. */
  lemma ParseItemIgnoresMiddle(host: string, mid1: string, mid2: string, port: string)
    requires '|' !in host && '|' !in mid1 && '|' !in mid2
    ensures ParseItem(host + "|" + mid1 + "|" + port) == ParseItem(host + "|" + mid2 + "|" + port)
  {
    var f1 := [host, mid1] + Split(port, '|');
    var f2 := [host, mid2] + Split(port, '|');
    EntrySplit(host, mid1, port);
    EntrySplit(host, mid2, port);
  }

  lemma EntrySplit(host: string, mid: string, port: string)
    requires '|' !in host && '|' !in mid
    ensures Split(host + "|" + mid + "|" + port, '|') == [host, mid] + Split(port, '|')
  {
    var parts := [host, mid] + Split(port, '|');
    assert parts[1..][1..] == Split(port, '|');
    assert Join(parts, '|') == host + "|" + mid + "|" + port by {
      JoinSplit(port, '|');
      assert Join(parts[1..], '|') == mid + "|" + Join(Split(port, '|'), '|');
    }
    SplitJoin(parts, '|');
  }

  /** An entry `host|ip|port` with a printed 64-bit port parses back to `host:port`. */
  lemma ParseItemOfEntry(host: string, ip: string, port: int)
    requires '|' !in host && '|' !in ip
    requires MinInt64 <= port <= MaxInt64
    ensures ParseItem(host + "|" + ip + "|" + IntToDecimal(port)) == Success(host + ":" + IntToDecimal(port))
  {
    var p := IntToDecimal(port);
    assert '|' !in p;
    EntrySplit(host, ip, p);
    SplitWithoutSeparator(p, '|');
    AtoiOfDecimal(port);
  }

  /** A unix-socket entry `path||` has an empty port field, which `strconv.Atoi`
      rejects, so the whole call fails. */
  lemma UnixEntryRejected(path: string)
    requires '|' !in path
    ensures ParseItem(path + "||") == Failure(InvalidPort(""))
  {
    EntrySplit(path, "", "");
    assert path + "||" == path + "|" + "" + "|" + "";
  }

  /** `ClusterNodes` after dialling and sending `ConfigRequest`: the nodes line of
      the reply, parsed into addresses. */
  function DiscoverFrom(reply: Stream): Result<seq<string>, DiscoveryError> {
    match NodesLine(reply)
    case Failure(e) => Failure(e)
    case Success(response) => ParseURLs(response)
  }
}

=== FILE: line_scanner.dfy ===
/** The line splitting of Go's `bufio.Scanner` (its default `ScanLines` split
    function), applied to the whole of a reader's bytes. */
module LineScanner {
  import opened Text

  /** `bufio.ScanLines` drops one carriage return before the newline. */
  function DropCR(line: string): string {
    if |line| > 0 && line[|line| - 1] == '\r' then line[..|line| - 1] else line
  }

  /** The tokens `bufio.Scanner` yields with its default line splitting: the text
      between newlines, each without a trailing `\r`, and a final unterminated line
      only when it is non-empty. */
  function ScanLines(data: string): seq<string> {
    var parts := Split(data, '\n');
    DropCRs(if parts[|parts| - 1] == "" then parts[..|parts| - 1] else parts)
  }

  function DropCRs(lines: seq<string>): (r: seq<string>)
    ensures |r| == |lines|
    ensures forall i :: 0 <= i < |lines| ==> r[i] == DropCR(lines[i])
  {
    seq(|lines|, i requires 0 <= i < |lines| => DropCR(lines[i]))
  }

  /** Text made of the given lines, each terminated by a newline. */
  function Terminated(lines: seq<string>): string {
    if |lines| == 0 then "" else lines[0] + "\n" + Terminated(lines[1..])
  }

  predicate PlainLine(line: string) {
    '\n' !in line && (|line| == 0 || line[|line| - 1] != '\r')
  }

  /** The last line read is terminated unless the data ends in something other
      than a newline; the scanner delivers such an open last line only after a
      read has reported the end of the input. */
  predicate OpenLast(data: string) {
    |data| > 0 && data[|data| - 1] != '\n'
  }

  /** Terminated lines followed by `last` are the lines and `last` joined by newlines. */
  lemma {:induction false} TerminatedThen(lines: seq<string>, last: string)
    ensures Terminated(lines) + last == Join(lines + [last], '\n')
    decreases |lines|
  {
    if |lines| > 0 {
      TerminatedThen(lines[1..], last);
      assert (lines + [last])[1..] == lines[1..] + [last];
    }
  }

  /** Newline-terminated text never has an open last line. */
  lemma {:induction false} TerminatedClosed(lines: seq<string>)
    ensures !OpenLast(Terminated(lines))
    decreases |lines|
  {
    if |lines| > 0 {
      TerminatedClosed(lines[1..]);
      var rest := Terminated(lines[1..]);
      var t := Terminated(lines);
      assert t == (lines[0] + "\n") + rest;
      if |rest| == 0 {
        assert t[|t| - 1] == '\n';
      } else {
        assert t[|t| - 1] == rest[|rest| - 1];
      }
    }
  }

  lemma SplitTerminated(lines: seq<string>)
    requires forall i :: 0 <= i < |lines| ==> '\n' !in lines[i]
    ensures Split(Terminated(lines), '\n') == lines + [""]
  {
    var parts := lines + [""];
    assert forall i :: 0 <= i < |parts| ==> '\n' !in parts[i];
    TerminatedThen(lines, "");
    assert Terminated(lines) + "" == Terminated(lines);
    SplitJoin(parts, '\n');
  }

  /** Terminated lines followed by a non-empty open line: the scanner yields all
      of them, the open one last. */
  lemma ScanOpenLast(lines: seq<string>, last: string)
    requires forall i :: 0 <= i < |lines| ==> '\n' !in lines[i]
    requires '\n' !in last && |last| > 0
    ensures ScanLines(Terminated(lines) + last) == DropCRs(lines + [last])
  {
    SplitOpen(lines, last);
    var parts := lines + [last];
    assert parts[|parts| - 1] == last;
  }

  lemma SplitOpen(lines: seq<string>, last: string)
    requires forall i :: 0 <= i < |lines| ==> '\n' !in lines[i]
    requires '\n' !in last
    ensures Split(Terminated(lines) + last, '\n') == lines + [last]
  {
    var parts := lines + [last];
    assert forall i :: 0 <= i < |parts| ==> '\n' !in parts[i];
    TerminatedThen(lines, last);
    SplitJoin(parts, '\n');
  }

  /** Text that ends in a non-empty line without a newline has an open last line. */
  lemma OpenLastOf(text: string, last: string)
    requires '\n' !in last && |last| > 0
    ensures OpenLast(text + last)
  {
    var data := text + last;
    assert data[|data| - 1] == last[|last| - 1];
  }

  /** Scanning newline-terminated lines gives each line back without its
      trailing carriage return. */
  lemma ScanTerminatedLines(lines: seq<string>)
    requires forall i :: 0 <= i < |lines| ==> '\n' !in lines[i]
    ensures ScanLines(Terminated(lines)) == DropCRs(lines)
  {
    SplitTerminated(lines);
    var parts := lines + [""];
    assert parts[|parts| - 1] == "";
    assert parts[..|parts| - 1] == lines;
  }

  /** Scanning newline-terminated plain lines gives the lines back (the inverse of `Terminated`). */
  lemma ScanTerminated(lines: seq<string>)
    requires forall i :: 0 <= i < |lines| ==> PlainLine(lines[i])
    ensures ScanLines(Terminated(lines)) == lines
  {
    ScanTerminatedLines(lines);
    DropCRsPlain(lines);
  }

  lemma DropCRsPlain(lines: seq<string>)
    requires forall i :: 0 <= i < |lines| ==> PlainLine(lines[i])
    ensures DropCRs(lines) == lines
  {
  }
}

=== FILE: listeners.dfy ===
/** `createListeners` (`main.go`): one proxy listener per upstream node, each
    on a local unix socket or TCP port derived from its index, and a final
    listener that serves the config-server reply advertising those local
    addresses, in the ElastiCache `host|ip|port` entry format. */
module Listeners {
  import opened Results
  import opened Text
  import opened Decimal
  import opened Settings

  datatype Listener =
    | Proxy(network: string, local: string, upstream: string, unlink: bool)
    | ConfigService(network: string, local: string, unlink: bool, configsJoined: string)

  /** Unix sockets are used when the network name mentions "unix". */
  predicate UnixMode(network: string) {
    Contains(network, "unix")
  }

  /** The local TCP port of the `index`-th upstream (Go `int` addition). */
  function LocalPort(cfg: Config, index: nat): int {
    cfg.localPortStart + index
  }

  /** The address the `index`-th proxy listens on. */
  function LocalAddress(cfg: Config, index: nat): string {
    if UnixMode(cfg.network) then cfg.localSocketPrefix + IntToDecimal(index) + cfg.localSocketSuffix
    else ":" + IntToDecimal(LocalPort(cfg, index))
  }

  /** The config-server entry that advertises the `index`-th proxy. */
  function ConfigEntry(cfg: Config, index: nat): string {
    if UnixMode(cfg.network) then LocalAddress(cfg, index) + "||"
    else "localhost|127.0.0.1|" + IntToDecimal(LocalPort(cfg, index))
  }

  /** The entries of the first `n` proxies, in index order. */
  function ConfigEntries(cfg: Config, n: nat): (r: seq<string>)
    ensures |r| == n
    ensures forall i :: 0 <= i < n ==> r[i] == ConfigEntry(cfg, i)
  {
    if n == 0 then [] else ConfigEntries(cfg, n - 1) + [ConfigEntry(cfg, n - 1)]
  }

  /** The proxy listeners of the first `n` upstreams, each on the local address of its index. */
  function Proxies(cfg: Config, upstreams: seq<string>, n: nat): (r: seq<Listener>)
    requires n <= |upstreams|
    ensures |r| == n
    ensures forall i :: 0 <= i < n ==>
      r[i] == Proxy(cfg.network, LocalAddress(cfg, i), upstreams[i], cfg.unlink)
  {
    if n == 0 then []
    else Proxies(cfg, upstreams, n - 1) + [Proxy(cfg.network, LocalAddress(cfg, n - 1), upstreams[n - 1], cfg.unlink)]
  }

  /** A socket path is the prefix, the index in decimal and the suffix, and its
      entry is the path with empty address and port fields. */
  predicate NamesSocket(cfg: Config, index: nat, local: string, entry: string) {
    var pre, suf := cfg.localSocketPrefix, cfg.localSocketSuffix;
    && |local| > |pre| + |suf|
    && local[..|pre|] == pre && local[|local| - |suf|..] == suf
    && (index <= MaxInt64 ==> Atoi(local[|pre|..|local| - |suf|]) == Some(index))
    && entry == local + "||"
  }

  /** A TCP proxy listens on `:<port>` and its entry advertises that same port
      on localhost. */
  predicate AdvertisesPort(cfg: Config, index: nat, local: string, entry: string) {
    && |local| >= 2 && local[0] == ':'
    && Split(entry, '|') == ["localhost", "127.0.0.1", local[1..]]
    && (MinInt64 <= LocalPort(cfg, index) <= MaxInt64 ==> Atoi(local[1..]) == Some(LocalPort(cfg, index)))
  }

  /** The loop body of `createListeners`: the local address of the `index`-th
      proxy and the entry advertising it. */
  method Addresses(cfg: Config, index: nat) returns (local: string, entry: string)
    ensures local == LocalAddress(cfg, index) && entry == ConfigEntry(cfg, index)
    ensures UnixMode(cfg.network) ==> NamesSocket(cfg, index, local, entry)
    ensures !UnixMode(cfg.network) ==> AdvertisesPort(cfg, index, local, entry)
  {
    if Contains(cfg.network, "unix") {
      var digits := IntToDecimal(index);
      local := cfg.localSocketPrefix + digits + cfg.localSocketSuffix;
      entry := local + "||";
      assert local[|cfg.localSocketPrefix|..|local| - |cfg.localSocketSuffix|] == digits;
      if index <= MaxInt64 {
        AtoiOfDecimal(index);
      }
    } else {
      var port := cfg.localPortStart + index;
      local := ":" + IntToDecimal(port);
      entry := "localhost|127.0.0.1|" + IntToDecimal(port);
      assert local[1..] == IntToDecimal(port);
      TcpEntryFields(cfg, index);
      if MinInt64 <= port <= MaxInt64 {
        AtoiOfDecimal(port);
      }
    }
  }

  /** The listeners `createListeners` builds for `upstreams`, in order, and the
      space-separated config string its last listener serves. Errors from the
      statsd, pool and listener constructors are not modelled. */
  method CreateListeners(cfg: Config, upstreams: seq<string>) returns (listeners: seq<Listener>, configsJoined: string)
    ensures listeners == Proxies(cfg, upstreams, |upstreams|) + [ConfigService("tcp4", cfg.localConfigHost, cfg.unlink, configsJoined)]
    ensures configsJoined == Join(ConfigEntries(cfg, |upstreams|), ' ')
  {
    var configs;
    listeners, configs := ProxyListeners(cfg, upstreams);
    configsJoined := Join(configs, ' ');
    listeners := listeners + [ConfigService("tcp4", cfg.localConfigHost, cfg.unlink, configsJoined)];
  }

  /** The loop of `createListeners` over the upstreams: a proxy per upstream and
      the entry advertising it, both in upstream order. */
  method ProxyListeners(cfg: Config, upstreams: seq<string>) returns (listeners: seq<Listener>, configs: seq<string>)
    ensures listeners == Proxies(cfg, upstreams, |upstreams|)
    ensures configs == ConfigEntries(cfg, |upstreams|)
  {
    configs := [];
    listeners := [];
    var index := 0;
    while index < |upstreams|
      invariant 0 <= index <= |upstreams|
      invariant configs == ConfigEntries(cfg, index)
      invariant listeners == Proxies(cfg, upstreams, index)
    {
      var local, entry := Addresses(cfg, index);
      GrowOne(cfg, upstreams, index);
      configs := configs + [entry];
      listeners := listeners + [Proxy(cfg.network, local, upstreams[index], cfg.unlink)];
      index := index + 1;
    }
  }

  /** One more turn of the loop adds the next proxy and the next entry. */
  lemma GrowOne(cfg: Config, upstreams: seq<string>, n: nat)
    requires n < |upstreams|
    ensures ConfigEntries(cfg, n + 1) == ConfigEntries(cfg, n) + [ConfigEntry(cfg, n)]
    ensures Proxies(cfg, upstreams, n + 1)
      == Proxies(cfg, upstreams, n) + [Proxy(cfg.network, LocalAddress(cfg, n), upstreams[n], cfg.unlink)]
  {
  }

  /** Of the accepted networks, exactly "unix" and "unixpacket" select unix sockets. */
  lemma UnixModeOfValidNetwork(network: string)
    requires ValidNetwork(network)
    ensures UnixMode(network) <==> network == "unix" || network == "unixpacket"
  {
    ContainsIff(network, "unix");
    if network == "unix" {
      assert OccursAt(network, "unix", 0);
    } else if network == "unixpacket" {
      assert OccursAt(network, "unix", 0);
    }
  }

  /** The digits of a decimal hold neither a space nor a bar. */
  lemma DecimalHasNoSeparator(i: int, c: char)
    requires c == ' ' || c == '|' || c == '\n'
    ensures c !in IntToDecimal(i)
  {
    var d := NatToDecimal(if i < 0 then -i else i);
    assert c !in d;
    if i < 0 {
      assert IntToDecimal(i) == "-" + d;
    }
  }

  /** In TCP mode an entry splits at its bars into host, address and port. */
  lemma TcpEntryFields(cfg: Config, index: nat)
    requires !UnixMode(cfg.network)
    ensures Split(ConfigEntry(cfg, index), '|') == ["localhost", "127.0.0.1", IntToDecimal(LocalPort(cfg, index))]
  {
    var p := IntToDecimal(LocalPort(cfg, index));
    DecimalHasNoSeparator(LocalPort(cfg, index), '|');
    var parts := ["localhost", "127.0.0.1", p];
    assert parts[1..] == ["127.0.0.1", p];
    assert parts[1..][1..] == [p];
    assert Join(parts[1..], '|') == "127.0.0.1" + "|" + p;
    assert ConfigEntry(cfg, index) == Join(parts, '|');
    SplitJoin(parts, '|');
  }

  /** Neither kind of entry holds a space or a newline, as long as a socket
      path has none. */
  lemma EntryHasNoSpace(cfg: Config, index: nat, c: char)
    requires c == ' ' || c == '\n'
    requires UnixMode(cfg.network) ==> c !in cfg.localSocketPrefix && c !in cfg.localSocketSuffix
    ensures c !in ConfigEntry(cfg, index)
  {
    if UnixMode(cfg.network) {
      DecimalHasNoSeparator(index, c);
      var local := cfg.localSocketPrefix + IntToDecimal(index) + cfg.localSocketSuffix;
      assert c !in local;
      assert c !in "||";
    } else {
      DecimalHasNoSeparator(LocalPort(cfg, index), c);
      assert c !in "localhost|127.0.0.1|";
    }
  }

  /** The joined config string splits back at its spaces into one entry per upstream. */
  lemma {:induction false} EntriesOfJoined(cfg: Config, n: nat)
    requires n >= 1
    requires UnixMode(cfg.network) ==> ' ' !in cfg.localSocketPrefix && ' ' !in cfg.localSocketSuffix
    ensures Split(Join(ConfigEntries(cfg, n), ' '), ' ') == ConfigEntries(cfg, n)
  {
    var entries := ConfigEntries(cfg, n);
    forall i | 0 <= i < n
      ensures ' ' !in entries[i]
    {
      EntryHasNoSpace(cfg, i, ' ');
    }
    SplitJoin(entries, ' ');
  }
}

=== FILE: pool_monitor.dfy ===
/** The connection-pool monitor of `main.go` (`poolMonitor`): every pool event
    becomes a statsd metric named after its type in snake case. Four event
    types move one of two gauges; every other type is counted. */
module PoolMonitor {
  import opened Text

  /** A match of the pattern `([a-z0-9])([A-Z])`: a lower-case letter or digit
      immediately followed by an upper-case letter. */
  predicate Boundary(a: char, b: char) {
    IsLowerOrDigit(a) && IsUpper(b)
  }

  /** No two adjacent characters of `s` form a boundary. */
  predicate NoBoundary(s: string) {
    forall i :: 0 <= i < |s| - 1 ==> !Boundary(s[i], s[i + 1])
  }

  /** `ReplaceAllString(s, "${1}_${2}")` for that pattern: scanning from the
      left, each match is replaced by its two characters with `_` between them,
      and the scan resumes after the match, so matches never overlap. */
  function ReplaceBoundaries(s: string): string
    decreases |s|
  {
    if |s| < 2 then s
    else if Boundary(s[0], s[1]) then [s[0], '_', s[1]] + ReplaceBoundaries(s[2..])
    else [s[0]] + ReplaceBoundaries(s[1..])
  }

  /** Reference definition: every character of `s`, followed by `_` exactly when
      it and the next character form a boundary. */
  function Underscored(s: string): string
    decreases |s|
  {
    if |s| < 2 then s
    else [s[0]] + (if Boundary(s[0], s[1]) then "_" else "") + Underscored(s[1..])
  }

  /** Because an upper-case letter never starts a boundary, two matches can
      never overlap, and the left-to-right replacement inserts an underscore at
      every boundary of `s`. */
  lemma {:induction false} ReplaceIsUnderscored(s: string)
    ensures ReplaceBoundaries(s) == Underscored(s)
    decreases |s|
  {
    if |s| >= 2 {
      if Boundary(s[0], s[1]) {
        ReplaceIsUnderscored(s[2..]);
        var t := s[1..];
        assert t[1..] == s[2..];
        if |t| >= 2 {
          assert !Boundary(t[0], t[1]);
          assert Underscored(t) == [s[1]] + Underscored(s[2..]);
        } else {
          assert Underscored(t) == [s[1]] + Underscored(s[2..]);
        }
      } else {
        ReplaceIsUnderscored(s[1..]);
      }
    }
  }

  /** The text with every `_` deleted. */
  function DropUnderscores(s: string): string {
    if |s| == 0 then s
    else (if s[0] == '_' then "" else [s[0]]) + DropUnderscores(s[1..])
  }

  lemma {:induction false} DropUnderscoresAppend(a: string, b: string)
    ensures DropUnderscores(a + b) == DropUnderscores(a) + DropUnderscores(b)
    decreases |a|
  {
    if |a| == 0 {
      assert a + b == b;
    } else {
      assert (a + b)[0] == a[0];
      assert (a + b)[1..] == a[1..] + b;
      DropUnderscoresAppend(a[1..], b);
    }
  }

  /** The rewrite only inserts underscores: deleting them restores a name
      that had none. */
  lemma {:induction false} ReplaceOnlyInserts(s: string)
    requires '_' !in s
    ensures DropUnderscores(ReplaceBoundaries(s)) == s
    decreases |s|
  {
    if |s| >= 2 {
      if Boundary(s[0], s[1]) {
        assert '_' !in s[2..];
        ReplaceOnlyInserts(s[2..]);
        DropUnderscoresAppend([s[0], '_', s[1]], ReplaceBoundaries(s[2..]));
        assert DropUnderscores([s[1]]) == [s[1]] by {
          assert [s[1]][1..] == [];
        }
        assert DropUnderscores(['_', s[1]]) == [s[1]] by {
          assert ['_', s[1]][1..] == [s[1]];
        }
        assert DropUnderscores([s[0], '_', s[1]]) == [s[0], s[1]] by {
          assert [s[0], '_', s[1]][1..] == ['_', s[1]];
        }
        assert [s[0], s[1]] + s[2..] == s;
      } else {
        assert '_' !in s[1..];
        ReplaceOnlyInserts(s[1..]);
        DropUnderscoresAppend([s[0]], ReplaceBoundaries(s[1..]));
        assert [s[0]] + s[1..] == s;
      }
    } else if |s| == 1 {
      assert DropUnderscores(s) == [s[0]] + DropUnderscores(s[1..]);
    }
  }

  /** The first character is kept, so a rewrite of a non-empty name starts
      with the name's first character. */
  lemma ReplaceKeepsFirst(s: string)
    requires |s| >= 1
    ensures |ReplaceBoundaries(s)| >= 1 && ReplaceBoundaries(s)[0] == s[0]
  {
  }

  /** After the rewrite no boundary is left. */
  lemma {:induction false} ReplaceLeavesNoBoundary(s: string)
    ensures NoBoundary(ReplaceBoundaries(s))
    decreases |s|
  {
    if |s| >= 2 {
      var r := ReplaceBoundaries(s);
      if Boundary(s[0], s[1]) {
        var rest := ReplaceBoundaries(s[2..]);
        ReplaceLeavesNoBoundary(s[2..]);
        assert r == [s[0], '_', s[1]] + rest;
        if |rest| > 0 {
          ReplaceKeepsFirst(s[2..]);
        }
        forall i | 0 <= i < |r| - 1
          ensures !Boundary(r[i], r[i + 1])
        {
          if i >= 3 {
            assert r[i] == rest[i - 3] && r[i + 1] == rest[i - 2];
          }
        }
      } else {
        var rest := ReplaceBoundaries(s[1..]);
        ReplaceLeavesNoBoundary(s[1..]);
        ReplaceKeepsFirst(s[1..]);
        assert r == [s[0]] + rest;
        forall i | 0 <= i < |r| - 1
          ensures !Boundary(r[i], r[i + 1])
        {
          if i >= 1 {
            assert r[i] == rest[i - 1] && r[i + 1] == rest[i];
          }
        }
      }
    }
  }

  /** A name with no boundary is left alone. */
  lemma {:induction false} ReplaceWithoutBoundary(s: string)
    requires NoBoundary(s)
    ensures ReplaceBoundaries(s) == s
    decreases |s|
  {
    if |s| >= 2 {
      assert !Boundary(s[0], s[1]);
      assert NoBoundary(s[1..]) by {
        forall i | 0 <= i < |s[1..]| - 1
          ensures !Boundary(s[1..][i], s[1..][i + 1])
        {
          assert s[1..][i] == s[i + 1] && s[1..][i + 1] == s[i + 2];
        }
      }
      ReplaceWithoutBoundary(s[1..]);
      assert [s[0]] + s[1..] == s;
    }
  }

  /** The rewrite is idempotent. */
  lemma ReplaceIdempotent(s: string)
    ensures ReplaceBoundaries(ReplaceBoundaries(s)) == ReplaceBoundaries(s)
  {
    ReplaceLeavesNoBoundary(s);
    ReplaceWithoutBoundary(ReplaceBoundaries(s));
  }

  /** The metric name of an event type: `pool_event.` and the lower-cased,
      underscored type. */
  function EventName(kind: string): string {
    "pool_event." + ToLower(ReplaceBoundaries(kind))
  }

  datatype Event = Event(kind: string, address: string, reason: string)

  /** The statsd tags every event metric carries. */
  function Tags(e: Event): seq<string> {
    ["address:" + e.address, "reason:" + e.reason]
  }

  datatype Gauge = OpenConnections | CheckedOutConnections

  /** The metric of one event: a step up or down of a gauge, or a count. */
  datatype Metric =
    | GaugeUp(gauge: Gauge, name: string, tags: seq<string>)
    | GaugeDown(gauge: Gauge, name: string, tags: seq<string>)
    | Incr(name: string, tags: seq<string>)

  /** The event-type constants of the pool package that the monitor singles out:
      a connection created or closed, checked out or returned. */
  datatype EventKinds = EventKinds(created: string, closed: string, checkedOut: string, returned: string)

  predicate Distinct(k: EventKinds) {
    k.created != k.closed && k.created != k.checkedOut && k.created != k.returned &&
    k.closed != k.checkedOut && k.closed != k.returned && k.checkedOut != k.returned
  }

  /** The `Event` callback: the first matching case of the switch decides. */
  function Dispatch(k: EventKinds, e: Event): (m: Metric)
    ensures m.name == EventName(e.kind) && m.tags == Tags(e)
    ensures m.Incr? <==> e.kind !in {k.created, k.closed, k.checkedOut, k.returned}
    ensures m.GaugeUp? ==> (m.gauge == OpenConnections <==> e.kind == k.created)
    ensures m.GaugeDown? ==> (m.gauge == OpenConnections <==> e.kind == k.closed)
    ensures Distinct(k) ==>
      Movement(m, OpenConnections) == (if e.kind == k.created then 1 else 0) - (if e.kind == k.closed then 1 else 0)
    ensures Distinct(k) ==>
      Movement(m, CheckedOutConnections) == (if e.kind == k.checkedOut then 1 else 0) - (if e.kind == k.returned then 1 else 0)
  {
    var name := EventName(e.kind);
    if e.kind == k.created then GaugeUp(OpenConnections, name, Tags(e))
    else if e.kind == k.closed then GaugeDown(OpenConnections, name, Tags(e))
    else if e.kind == k.checkedOut then GaugeUp(CheckedOutConnections, name, Tags(e))
    else if e.kind == k.returned then GaugeDown(CheckedOutConnections, name, Tags(e))
    else Incr(name, Tags(e))
  }

  /** The net movement of gauge `g` over a sequence of metrics. */
  function Level(ms: seq<Metric>, g: Gauge): int {
    if |ms| == 0 then 0
    else Level(ms[..|ms| - 1], g) + Movement(ms[|ms| - 1], g)
  }

  /** How far `m` moves gauge `g`: up one, down one, or not at all. */
  function Movement(m: Metric, g: Gauge): int {
    match m
    case GaugeUp(h, _, _) => if h == g then 1 else 0
    case GaugeDown(h, _, _) => if h == g then -1 else 0
    case Incr(_, _) => 0
  }

  /** How many events in `es` have type `kind`. */
  function Occurrences(es: seq<Event>, kind: string): nat {
    if |es| == 0 then 0
    else Occurrences(es[..|es| - 1], kind) + (if es[|es| - 1].kind == kind then 1 else 0)
  }

  function Metrics(k: EventKinds, es: seq<Event>): (ms: seq<Metric>)
    ensures |ms| == |es|
    ensures forall i :: 0 <= i < |es| ==> ms[i] == Dispatch(k, es[i])
  {
    if |es| == 0 then [] else Metrics(k, es[..|es| - 1]) + [Dispatch(k, es[|es| - 1])]
  }

  /** The gauges track the pool: open connections move by created minus closed
      events, checked-out connections by checked-out minus returned events. */
  lemma {:induction false} GaugesTrackEvents(k: EventKinds, es: seq<Event>)
    requires Distinct(k)
    ensures Level(Metrics(k, es), OpenConnections) == Occurrences(es, k.created) - Occurrences(es, k.closed)
    ensures Level(Metrics(k, es), CheckedOutConnections) == Occurrences(es, k.checkedOut) - Occurrences(es, k.returned)
    decreases |es|
  {
    if |es| > 0 {
      var n := |es| - 1;
      GaugesTrackEvents(k, es[..n]);
      var ms := Metrics(k, es);
      assert ms[..n] == Metrics(k, es[..n]);
    }
  }
}

=== FILE: resource_pool.dfy ===
/** The idle-resource list of the connection pool (`resourcePool`, specified
    by `pool/resource_pool_test.go`): a doubly linked list with `start` and
    `end` pointers and a `size` counter, filled at the end and drained from
    the start. Pointers are modelled as ids into a map of nodes; ids are
    handed out in increasing order, so the list always holds the most recent
    `size` ids, oldest first. */
module ResourcePool {
  import opened Results

  type Id = nat

  datatype Node<T> = Node(value: T, prev: Option<Id>, next: Option<Id>)

  datatype Pool<T> = Pool(nodes: map<Id, Node<T>>, start: Option<Id>, end: Option<Id>, size: nat, nextId: Id)

  /** The id of the oldest node still in the list. */
  function Low<T>(p: Pool<T>): int {
    p.nextId - p.size
  }

  /** The links of `p` form a list of the ids `Low(p)` up to `nextId - 1`, in
      that order: each node points back to its predecessor and on to its
      successor, `start` and `end` name the two ends (nil when the list is
      empty), and `size` counts the nodes. */
  ghost predicate Valid<T>(p: Pool<T>) {
    && p.size <= p.nextId
    && (forall k :: k in p.nodes <==> Low(p) <= k < p.nextId)
    && p.start == (if p.size == 0 then None else Some(Low(p) as Id))
    && p.end == (if p.size == 0 then None else Some(p.nextId - 1))
    && (forall k :: k in p.nodes ==> p.nodes[k].prev == (if k == Low(p) then None else Some(k - 1)))
    && (forall k :: k in p.nodes ==> p.nodes[k].next == (if k == p.nextId - 1 then None else Some(k + 1)))
  }

  /** The items of the list, from start to end. */
  function Items<T>(p: Pool<T>): (items: seq<T>)
    requires forall k :: Low(p) <= k < p.nextId ==> k in p.nodes
    ensures |items| == p.size
  {
    seq(p.size, i requires 0 <= i < p.size => ValueAt(p, i))
  }

  /** The item of the node `i` places after the start. */
  function ValueAt<T>(p: Pool<T>, i: int): T
    requires forall k :: Low(p) <= k < p.nextId ==> k in p.nodes
    requires 0 <= i < p.size
  {
    p.nodes[Low(p) + i].value
  }

  /** The `i`-th item is the value of the node with id `Low(p) + i`. */
  lemma ItemAt<T>(p: Pool<T>, i: int)
    requires forall k :: Low(p) <= k < p.nextId ==> k in p.nodes
    requires 0 <= i < p.size
    ensures Items(p)[i] == ValueAt(p, i)
  {
  }

  /** A new pool: no nodes, nil `start` and `end`, size 0. */
  function New<T>(): (p: Pool<T>)
    ensures Valid(p) && Items(p) == []
  {
    Pool(map[], None, None, 0, 0)
  }

  /** `Put`: a new node after the current end, which becomes the end. */
  function Put<T>(p: Pool<T>, x: T): Pool<T> {
    var id := p.nextId;
    var nodes := p.nodes[id := Node(x, p.end, None)];
    var nodes := if p.end.Some? && p.end.value in p.nodes
                 then nodes[p.end.value := p.nodes[p.end.value].(next := Some(id))]
                 else nodes;
    Pool(nodes, if p.start.None? then Some(id) else p.start, Some(id), p.size + 1, id + 1)
  }

  /** `Get`: the item at the start, whose successor becomes the start; nothing
      from an empty list. */
  function Get<T>(p: Pool<T>): (Option<T>, Pool<T>) {
    if p.start.None? || p.start.value !in p.nodes then (None, p)
    else
      var id := p.start.value;
      var node := p.nodes[id];
      var nodes := p.nodes - {id};
      var nodes := if node.next.Some? && node.next.value in nodes
                   then nodes[node.next.value := nodes[node.next.value].(prev := None)]
                   else nodes;
      (Some(node.value), Pool(nodes, node.next, if node.next.None? then None else p.end,
                              if p.size > 0 then p.size - 1 else 0, p.nextId))
  }

  /** `Put` keeps the list valid and appends its item at the end. */
  lemma PutAppends<T>(p: Pool<T>, x: T)
    requires Valid(p)
    ensures Valid(Put(p, x))
    ensures Items(Put(p, x)) == Items(p) + [x]
  {
    PutLinks(p, x);
    PutItems(p, x);
  }

  /** The old end gains a successor, the new node points back to it, and every
      other node is untouched. */
  lemma PutLinks<T>(p: Pool<T>, x: T)
    requires Valid(p)
    ensures Valid(Put(p, x))
  {
    var q := Put(p, x);
    assert Low(q) == Low(p);
    forall k
      ensures k in q.nodes <==> Low(q) <= k < q.nextId
    {
      if k in q.nodes || Low(q) <= k < q.nextId {
        PutNode(p, x, k);
      }
    }
    forall k | k in q.nodes
      ensures q.nodes[k].prev == (if k == Low(q) then None else Some(k - 1))
      ensures q.nodes[k].next == (if k == q.nextId - 1 then None else Some(k + 1))
    {
      PutNode(p, x, k);
    }
  }

  /** What `Put` leaves at each id: the new node at `nextId`, the old end with a
      link to it, and every other node as it was. */
  lemma PutNode<T>(p: Pool<T>, x: T, k: int)
    requires Valid(p)
    requires k in Put(p, x).nodes || Low(p) <= k <= p.nextId
    ensures k in Put(p, x).nodes
    ensures k == p.nextId ==> Put(p, x).nodes[k] == Node(x, p.end, None)
    ensures k != p.nextId ==> k in p.nodes
    ensures k != p.nextId ==> Put(p, x).nodes[k].value == p.nodes[k].value && Put(p, x).nodes[k].prev == p.nodes[k].prev
    ensures k != p.nextId ==> Put(p, x).nodes[k].next == (if k == p.nextId - 1 then Some(p.nextId) else p.nodes[k].next)
  {
    if p.size > 0 {
      assert p.nextId - 1 in p.nodes;
    }
  }

  lemma PutItems<T>(p: Pool<T>, x: T)
    requires Valid(p)
    ensures forall k :: Low(Put(p, x)) <= k < Put(p, x).nextId ==> k in Put(p, x).nodes
    ensures Items(Put(p, x)) == Items(p) + [x]
  {
    var q := Put(p, x);
    assert Low(q) == Low(p);
    forall k | Low(q) <= k < q.nextId
      ensures k in q.nodes
    {
      PutNode(p, x, k);
    }
    forall i | 0 <= i < p.size
      ensures ValueAt(q, i) == ValueAt(p, i)
    {
      PutNode(p, x, Low(p) + i);
    }
    SameItems(q, p, 0, p.size);
    ItemAt(q, p.size);
    assert Items(q) == Items(q)[..p.size] + [Items(q)[p.size]];
  }

  /** Two lists whose `n` nodes from `Low(q)` and from `Low(p) + offset` hold
      the same values have the same items there. */
  lemma SameItems<T>(q: Pool<T>, p: Pool<T>, offset: nat, n: nat)
    requires forall k :: Low(q) <= k < q.nextId ==> k in q.nodes
    requires forall k :: Low(p) <= k < p.nextId ==> k in p.nodes
    requires n <= q.size && offset + n <= p.size
    requires forall i :: 0 <= i < n ==> ValueAt(q, i) == ValueAt(p, offset + i)
    ensures Items(q)[..n] == Items(p)[offset..offset + n]
  {
    forall i | 0 <= i < n
      ensures Items(q)[i] == Items(p)[offset + i]
    {
      ItemAt(q, i);
      ItemAt(p, offset + i);
    }
  }

  /** `Get` removes the start item and keeps the rest valid and in order; on
      an empty list it returns nothing and changes nothing. */
  lemma GetTakesStart<T>(p: Pool<T>)
    requires Valid(p)
    ensures p.size == 0 ==> Get(p) == (None, p)
    ensures p.size > 0 ==> Get(p).0 == Some(Items(p)[0])
    ensures p.size > 0 ==> Valid(Get(p).1) && Items(Get(p).1) == Items(p)[1..]
  {
    if p.size > 0 {
      assert Low(p) in p.nodes;
      GetLinks(p);
      GetItems(p);
    }
  }

  /** The node after the start loses its back link; every other survivor is untouched. */
  lemma GetLinks<T>(p: Pool<T>)
    requires Valid(p) && p.size > 0
    ensures Valid(Get(p).1)
  {
    var q := Get(p).1;
    assert Low(p) in p.nodes;
    assert Low(q) == Low(p) + 1;
    assert forall k :: k in q.nodes <==> k in p.nodes && k != Low(p);
    forall k | k in q.nodes
      ensures q.nodes[k].prev == (if k == Low(q) then None else Some(k - 1))
    {
      assert k in p.nodes;
    }
    forall k | k in q.nodes
      ensures q.nodes[k].next == (if k == q.nextId - 1 then None else Some(k + 1))
    {
      assert k in p.nodes;
      assert q.nodes[k].next == p.nodes[k].next;
    }
  }

  lemma GetItems<T>(p: Pool<T>)
    requires Valid(p) && p.size > 0
    ensures forall k :: Low(Get(p).1) <= k < Get(p).1.nextId ==> k in Get(p).1.nodes
    ensures Get(p).0 == Some(Items(p)[0])
    ensures Items(Get(p).1) == Items(p)[1..]
  {
    var q := Get(p).1;
    assert Low(p) in p.nodes;
    assert Low(q) == Low(p) + 1;
    forall k | Low(q) <= k < q.nextId
      ensures k in q.nodes
    {
      GetKeepsValue(p, k);
    }
    ItemAt(p, 0);
    forall i | 0 <= i < q.size
      ensures ValueAt(q, i) == ValueAt(p, 1 + i)
    {
      GetKeepsValue(p, Low(p) + 1 + i);
    }
    SameItems(q, p, 1, q.size);
    assert Items(q) == Items(q)[..q.size];
  }

  /** A node that survives `Get` keeps its item. */
  lemma GetKeepsValue<T>(p: Pool<T>, k: int)
    requires Valid(p) && p.size > 0
    requires Low(p) < k < p.nextId
    ensures k in Get(p).1.nodes && Get(p).1.nodes[k].value == p.nodes[k].value
  {
    var id := Low(p);
    assert id in p.nodes && k in p.nodes;
    var rest := p.nodes - {id};
    assert k in rest && rest[k] == p.nodes[k];
    assert p.nodes[id].next == Some(id + 1);
  }

  /** `Put` every item of `xs`, in order. */
  function PutAll<T>(p: Pool<T>, xs: seq<T>): Pool<T>
    decreases |xs|
  {
    if |xs| == 0 then p else PutAll(Put(p, xs[0]), xs[1..])
  }

  /** `Get` `n` times, collecting what comes out. */
  function GetN<T>(p: Pool<T>, n: nat): (r: (seq<Option<T>>, Pool<T>))
    ensures |r.0| == n
    decreases n
  {
    if n == 0 then ([], p)
    else
      var got := Get(p);
      var more := GetN(got.1, n - 1);
      ([got.0] + more.0, more.1)
  }

  /** Putting several items appends them all, in order. */
  lemma {:induction false} PutAllAppends<T>(p: Pool<T>, xs: seq<T>)
    requires Valid(p)
    ensures Valid(PutAll(p, xs)) && Items(PutAll(p, xs)) == Items(p) + xs
    decreases |xs|
  {
    if |xs| == 0 {
      assert Items(p) + xs == Items(p);
    } else {
      var q := Put(p, xs[0]);
      PutAppends(p, xs[0]);
      PutAllAppends(q, xs[1..]);
      assert PutAll(p, xs) == PutAll(q, xs[1..]);
      assert Items(p) + [xs[0]] + xs[1..] == Items(p) + xs;
    }
  }

  /** Getting `n` items yields the first `n` items of the list, in order. */
  lemma {:induction false} GetNTakesFront<T>(p: Pool<T>, n: nat)
    requires Valid(p) && n <= p.size
    ensures forall i :: 0 <= i < n ==> GetN(p, n).0[i] == Some(Items(p)[i])
    decreases n
  {
    if n > 0 {
      GetTakesStart(p);
      var q := Get(p).1;
      GetNTakesFront(q, n - 1);
      var items := Items(p);
      var tail := Items(q);
      var rest := GetN(q, n - 1).0;
      ConsFront(items, tail, rest, n);
    }
  }

  /** Prefixing the first item to the outputs for the rest of a sequence gives
      the outputs for its first `n` items. */
  lemma ConsFront<T>(items: seq<T>, tail: seq<T>, rest: seq<Option<T>>, n: nat)
    requires 0 < n <= |items| && tail == items[1..] && |rest| == n - 1
    requires forall i :: 0 <= i < n - 1 ==> rest[i] == Some(tail[i])
    ensures forall i :: 0 <= i < n ==> ([Some(items[0])] + rest)[i] == Some(items[i])
  {
    forall i | 0 < i < n
      ensures ([Some(items[0])] + rest)[i] == Some(items[i])
    {
      assert ([Some(items[0])] + rest)[i] == rest[i - 1];
    }
  }

  /** The pool is first-in first-out: whatever is put into a new pool comes
      out again in the same order. */
  lemma FirstInFirstOut<T>(xs: seq<T>)
    ensures forall i :: 0 <= i < |xs| ==> GetN(PutAll(New(), xs), |xs|).0[i] == Some(xs[i])
  {
    var p: Pool<T> := New();
    PutAllAppends(p, xs);
    assert Items(p) + xs == xs;
    GetNTakesFront(PutAll(p, xs), |xs|);
  }
}

=== FILE: resource_pool_tests.dfy ===
/** The scenarios of `pool/resource_pool_test.go`, stated for every empty list
    (a new pool is one, and so is a list drained back to zero). */
module ResourcePoolTests {
  import opened Results
  import opened ResourcePool

  /** A one-item list: `start` and `end` name the same node, which has neither
      a predecessor nor a successor. */
  predicate Single<T>(p: Pool<T>) {
    && p.size == 1 && p.start.Some? && p.start == p.end && p.start.value in p.nodes
    && p.nodes[p.start.value].prev.None? && p.nodes[p.start.value].next.None?
  }

  /** An empty list: no nodes, nil `start` and `end`, size 0. */
  predicate Empty<T>(p: Pool<T>) {
    p.size == 0 && p.start.None? && p.end.None? && p.nodes == map[]
  }

  /** A new pool is an empty list. */
  lemma NewIsEmpty<T>()
    ensures Empty<T>(New())
  {
  }

  /** `TestList`: one `Put` on an empty list makes a single-node list of size
      1 holding the item; `Get` returns that item and leaves an empty list, from
      which a further `Put` rebuilds the single-node shape. */
  lemma ListLifecycle<T>(p: Pool<T>, item: T)
    requires Valid(p) && Empty(p)
    ensures Single(Put(p, item)) && Put(p, item).nodes[Put(p, item).start.value].value == item
    ensures Get(Put(p, item)).0 == Some(item)
    ensures Valid(Get(Put(p, item)).1) && Empty(Get(Put(p, item)).1)
  {
    var p1 := Put(p, item);
    assert p1.nodes == map[p.nextId := Node(item, None, None)];
    var p2 := Get(p1).1;
    assert p2.nodes == map[];
    PutAppends(p, item);
    GetTakesStart(p1);
  }

  /** `TestAddedToEnd`: after putting `a` and then `b` on an empty list,
      `start` holds `a` and `end` holds `b`. */
  lemma AddedToEnd<T>(p: Pool<T>, a: T, b: T)
    requires Valid(p) && Empty(p)
    ensures var q := Put(Put(p, a), b);
      q.start.Some? && q.end.Some? && q.start.value in q.nodes && q.end.value in q.nodes
      && q.nodes[q.start.value].value == a && q.nodes[q.end.value].value == b
  {
    var p1 := Put(p, a);
    assert p1.nodes == map[p.nextId := Node(a, None, None)];
    var q := Put(p1, b);
    assert q.start == Some(p.nextId) && q.end == Some(p.nextId + 1);
  }

  /** `TestTakenFromStart`: after putting `a` and then `b` on an empty list,
      two `Get`s return `a` and then `b`. */
  lemma TakenFromStart<T>(p: Pool<T>, a: T, b: T)
    requires Valid(p) && Empty(p)
    ensures var q := Put(Put(p, a), b);
      Get(q).0 == Some(a) && Get(Get(q).1).0 == Some(b)
  {
    PutAppends(p, a);
    PutAppends(Put(p, a), b);
    var q := Put(Put(p, a), b);
    assert Items(q) == [a, b];
    GetTakesStart(q);
    GetTakesStart(Get(q).1);
    assert Items(Get(q).1) == [b];
  }
}

=== FILE: results.dfy ===
/** Failure-carrying wrappers shared by every module of the model: `Option` for
    values that may be absent and `Result` for Go's `(value, error)` returns. */
module Results {

  datatype Option<+T> = None | Some(value: T)

  /** A Go `(T, error)` pair: exactly one side is meaningful. */
  datatype Result<+T, +E> = Success(value: T) | Failure(error: E) {

    predicate IsFailure() {
      Failure?
    }

    function PropagateFailure<U>(): Result<U, E>
      requires Failure?
    {
      Failure(error)
    }

    function Extract(): T
      requires Success?
    {
      value
    }
  }

  /** Apply `f` to every element in order, stopping at the first failure: the
      result is every outcome's value, or the first error and no partial list. */
  function Collect<T, U, E>(f: T -> Result<U, E>, xs: seq<T>): (r: Result<seq<U>, E>)
    ensures r.Success? <==> forall i :: 0 <= i < |xs| ==> f(xs[i]).Success?
    ensures r.Success? ==> |r.value| == |xs| && forall i :: 0 <= i < |xs| ==> f(xs[i]) == Success(r.value[i])
    ensures r.Failure? ==> exists i :: (0 <= i < |xs| && f(xs[i]) == Failure(r.error)
      && forall j :: 0 <= j < i ==> f(xs[j]).Success?)
  {
    if |xs| == 0 then Success([])
    else
      match f(xs[0])
      case Failure(e) => Failure(e)
      case Success(y) =>
        var rest := Collect(f, xs[1..]);
        assert forall i :: 1 <= i < |xs| ==> xs[i] == xs[1..][i - 1];
        if rest.Failure? then Failure(rest.error) else Success([y] + rest.value)
  }

  /** Elements that each succeed with the matching value collect to all of them. */
  lemma CollectAll<T, U, E>(f: T -> Result<U, E>, xs: seq<T>, ys: seq<U>)
    requires |xs| == |ys|
    requires forall i :: 0 <= i < |xs| ==> f(xs[i]) == Success(ys[i])
    ensures Collect(f, xs) == Success(ys)
  {
    var r := Collect(f, xs);
    assert r.Success?;
    assert r.value == ys;
  }

  /** Collecting stops at a failing first element, with its error. */
  lemma FirstFailure<T, U, E>(f: T -> Result<U, E>, xs: seq<T>)
    requires |xs| >= 1 && f(xs[0]).Failure?
    ensures Collect(f, xs) == Failure(f(xs[0]).error)
  {
  }

  /** The values `done` already collected, followed by the outcome of the rest. */
  function Then<U, E>(done: seq<U>, rest: Result<seq<U>, E>): Result<seq<U>, E> {
    match rest
    case Success(ys) => Success(done + ys)
    case Failure(e) => Failure(e)
  }

  /** One step of `Collect` from the front. */
  lemma CollectStep<T, U, E>(f: T -> Result<U, E>, xs: seq<T>)
    requires |xs| > 0
    ensures Collect(f, xs) == match f(xs[0])
      case Failure(e) => Failure(e)
      case Success(y) => Then([y], Collect(f, xs[1..]))
  {
  }

  lemma ThenAppend<U, E>(done: seq<U>, y: U, rest: Result<seq<U>, E>)
    ensures Then(done, Then([y], rest)) == Then(done + [y], rest)
  {
    if rest.Success? {
      assert done + ([y] + rest.value) == (done + [y]) + rest.value;
    }
  }

  lemma ThenNothing<U, E>(r: Result<seq<U>, E>)
    ensures Then([], r) == r
  {
    if r.Success? {
      assert [] + r.value == r.value;
    }
  }
}

=== FILE: settings.dfy ===
/** Command-line configuration (`config/config.go`): the defaults of every
    flag, and the validation `parseFlags` performs once the flags are parsed,
    reporting the first problem found or building the `Config`. */
module Settings {
  import opened Results

  /** The networks the proxy can listen on. */
  const ValidNetworks: seq<string> := ["tcp", "tcp4", "tcp6", "unix", "unixpacket"]

  /** zap's logging levels. */
  datatype Level = Debug | Info | Warn | Error | DPanic | Panic | Fatal

  /** A `time.Duration`: a count of nanoseconds. */
  type Duration = int

  const Second: Duration := 1_000_000_000

  /** The values the flag package produced: every option, and the positional arguments. */
  datatype Flags = Flags(
    network: string,
    localConfig: string,
    localSocketPrefix: string,
    localSocketSuffix: string,
    localPortStart: int,
    unlink: bool,
    minPoolSize: nat,
    maxPoolSize: nat,
    readTimeout: Duration,
    writeTimeout: Duration,
    statsd: string,
    pretty: bool,
    loglevel: string,
    args: seq<string>)

  datatype Config = Config(
    upstreamConfigHost: string,
    localConfigHost: string,
    network: string,
    localSocketPrefix: string,
    localSocketSuffix: string,
    localPortStart: int,
    unlink: bool,
    minPoolSize: nat,
    maxPoolSize: nat,
    readTimeout: Duration,
    writeTimeout: Duration,
    pretty: bool,
    statsd: string,
    level: Level)

  datatype ConfigError =
    | InvalidLogLevel(loglevel: string)
    | MissingUpstream
    | InvalidNetwork(network: string)

  /** The text `parseFlags` reports for each error. */
  function Message(e: ConfigError): string {
    match e
    case InvalidLogLevel(v) => "invalid loglevel: " + v
    case MissingUpstream => "missing upstream config address"
    case InvalidNetwork(v) => "invalid network: " + v
  }

  /** The loglevel and network messages end with the offending value. */
  lemma MessageNamesValue(e: ConfigError)
    ensures e.InvalidLogLevel? ==> |Message(e)| >= |e.loglevel| && Message(e)[|Message(e)| - |e.loglevel|..] == e.loglevel
    ensures e.InvalidNetwork? ==> |Message(e)| >= |e.network| && Message(e)[|Message(e)| - |e.network|..] == e.network
  {
  }

  /** Whether `name` is one of `names`, scanning them in order. */
  function Listed(name: string, names: seq<string>): (r: bool)
    ensures r <==> exists i :: 0 <= i < |names| && names[i] == name
  {
    if |names| == 0 then false
    else if names[0] == name then true
    else
      assert forall i :: 1 <= i < |names| ==> names[i] == names[1..][i - 1];
      Listed(name, names[1..])
  }

  /** `validNetwork`: exactly the five stream and socket networks. */
  function ValidNetwork(network: string): (r: bool)
    ensures r <==> network in {"tcp", "tcp4", "tcp6", "unix", "unixpacket"}
  {
    Listed(network, ValidNetworks)
  }

  /** The flag values before any option is given, with the given positional arguments. */
  function Defaults(args: seq<string>): Flags {
    Flags(
      network := "unix",
      localConfig := ":11210",
      localSocketPrefix := "/var/tmp/memcachedbetween-",
      localSocketSuffix := ".sock",
      localPortStart := 11220,
      unlink := false,
      minPoolSize := 0,
      maxPoolSize := 10,
      readTimeout := 1 * Second,
      writeTimeout := 1 * Second,
      statsd := "localhost:8125",
      pretty := false,
      loglevel := "info",
      args := args)
  }

  /** `flag.Arg(0)`: the first positional argument, or "" when there is none. */
  function FirstArg(args: seq<string>): string {
    if |args| > 0 then args[0] else ""
  }

  /** The validation of `parseFlags`, given zap's parser of level names: an empty
      loglevel keeps Info; an unknown one is reported first, then a missing
      upstream address, then an unknown network. */
  function ParseFlags(f: Flags, parseLevel: string -> Option<Level>): Result<Config, ConfigError> {
    var level :- if f.loglevel == "" then Success(Info)
                 else match parseLevel(f.loglevel)
                   case None => Failure(InvalidLogLevel(f.loglevel))
                   case Some(l) => Success(l);
    var upstream := FirstArg(f.args);
    if |upstream| == 0 then Failure(MissingUpstream)
    else if !ValidNetwork(f.network) then Failure(InvalidNetwork(f.network))
    else Success(Config(
      upstreamConfigHost := upstream,
      localConfigHost := f.localConfig,
      network := f.network,
      localSocketPrefix := f.localSocketPrefix,
      localSocketSuffix := f.localSocketSuffix,
      localPortStart := f.localPortStart,
      unlink := f.unlink,
      minPoolSize := f.minPoolSize,
      maxPoolSize := f.maxPoolSize,
      readTimeout := f.readTimeout,
      writeTimeout := f.writeTimeout,
      pretty := f.pretty,
      statsd := f.statsd,
      level := level))
  }

  predicate LevelAccepted(f: Flags, parseLevel: string -> Option<Level>) {
    f.loglevel == "" || parseLevel(f.loglevel).Some?
  }

  /** The errors are reported in a fixed order, each only when every earlier
      check passed, and success means every check passed. */
  lemma ErrorOrder(f: Flags, parseLevel: string -> Option<Level>)
    ensures var r := ParseFlags(f, parseLevel);
      && (r == Failure(InvalidLogLevel(f.loglevel)) <==> !LevelAccepted(f, parseLevel))
      && (r == Failure(MissingUpstream) <==> LevelAccepted(f, parseLevel) && FirstArg(f.args) == "")
      && (r == Failure(InvalidNetwork(f.network)) <==>
            LevelAccepted(f, parseLevel) && FirstArg(f.args) != "" && !ValidNetwork(f.network))
      && (r.Success? <==> LevelAccepted(f, parseLevel) && FirstArg(f.args) != "" && ValidNetwork(f.network))
  {
  }

  /** On success every field is the parsed value, the upstream is the first
      positional argument, and the level is Info when none was named. */
  lemma ConfigFromFlags(f: Flags, parseLevel: string -> Option<Level>)
    requires ParseFlags(f, parseLevel).Success?
    ensures var c := ParseFlags(f, parseLevel).value;
      && c.upstreamConfigHost == f.args[0]
      && c.localConfigHost == f.localConfig
      && c.network == f.network
      && c.localSocketPrefix == f.localSocketPrefix
      && c.localSocketSuffix == f.localSocketSuffix
      && c.localPortStart == f.localPortStart
      && c.unlink == f.unlink
      && c.minPoolSize == f.minPoolSize
      && c.maxPoolSize == f.maxPoolSize
      && c.readTimeout == f.readTimeout
      && c.writeTimeout == f.writeTimeout
      && c.pretty == f.pretty
      && c.statsd == f.statsd
      && c.level == (if f.loglevel == "" then Info else parseLevel(f.loglevel).value)
  {
  }

  /** With only an upstream address given, the defaults are accepted: a unix
      listener, the config server on :11210, local ports from 11220, pools of 0
      to 10 connections and one-second timeouts. */
  lemma DefaultsAccepted(upstream: string, parseLevel: string -> Option<Level>)
    requires upstream != ""
    requires parseLevel("info") == Some(Info)
    ensures ParseFlags(Defaults([upstream]), parseLevel) == Success(Config(
      upstreamConfigHost := upstream,
      localConfigHost := ":11210",
      network := "unix",
      localSocketPrefix := "/var/tmp/memcachedbetween-",
      localSocketSuffix := ".sock",
      localPortStart := 11220,
      unlink := false,
      minPoolSize := 0,
      maxPoolSize := 10,
      readTimeout := Second,
      writeTimeout := Second,
      pretty := false,
      statsd := "localhost:8125",
      level := Info))
  {
    assert ValidNetwork("unix");
  }
}

=== FILE: signals.dfy ===
/** `shutdownOnSignal` (`main.go`): the first interrupt or terminate signal
    starts a graceful shutdown; after that, each further interrupt kills the
    remaining connections and a further terminate signal is ignored. */
module Signals {
  datatype Signal = Interrupt | Terminate

  /** What the handler does: start the shutdown, schedule the one-second
      "Ctrl-C again" hint, or kill the listeners' connections. */
  datatype Action = Shutdown | ScheduleHint | Kill

  datatype Handler = Handler(shutdownAttempted: bool)

  const Initial: Handler := Handler(false)

  /** One signal: the handler's next state and its actions, in order. */
  function Step(h: Handler, sig: Signal): (Handler, seq<Action>) {
    if !h.shutdownAttempted then
      (Handler(true), [Shutdown] + (if sig == Interrupt then [ScheduleHint] else []))
    else if sig == Interrupt then (h, [Kill])
    else (h, [])
  }

  /** The handler's state and actions after a sequence of signals. */
  function Run(h: Handler, sigs: seq<Signal>): (Handler, seq<Action>)
    decreases |sigs|
  {
    if |sigs| == 0 then (h, [])
    else
      var step := Step(h, sigs[0]);
      var rest := Run(step.0, sigs[1..]);
      (rest.0, step.1 + rest.1)
  }

  /** How many times `x` occurs in `xs`. */
  function Count<T(==)>(xs: seq<T>, x: T): nat {
    if |xs| == 0 then 0 else (if xs[0] == x then 1 else 0) + Count(xs[1..], x)
  }

  lemma {:induction false} CountAppend<T>(a: seq<T>, b: seq<T>, x: T)
    ensures Count(a + b, x) == Count(a, x) + Count(b, x)
    decreases |a|
  {
    if |a| == 0 {
      assert a + b == b;
    } else {
      assert (a + b)[0] == a[0];
      assert (a + b)[1..] == a[1..] + b;
      CountAppend(a[1..], b, x);
    }
  }

  /** Running from position `k` is one step followed by running from `k + 1`. */
  lemma RunFrom(h: Handler, sigs: seq<Signal>, k: nat)
    requires k < |sigs|
    ensures var step := Step(h, sigs[k]);
      Run(h, sigs[k..]) == (Run(step.0, sigs[k + 1..]).0, step.1 + Run(step.0, sigs[k + 1..]).1)
  {
    assert sigs[k..][1..] == sigs[k + 1..];
  }

  /** No action is taken twice. */
  predicate NoRepeats(actions: seq<Action>) {
    forall i, j :: 0 <= i < j < |actions| ==> actions[i] != actions[j]
  }

  /** The reaction to one signal, stated without `Step`: afterwards shutdown
      has been attempted; the shutdown starts, first, exactly on the first
      signal; the hint is scheduled exactly when that signal is an interrupt;
      a kill happens exactly for a later interrupt; nothing is done twice. */
  predicate Reacts(h: Handler, sig: Signal, next: Handler, actions: seq<Action>) {
    && next.shutdownAttempted
    && (Shutdown in actions <==> !h.shutdownAttempted)
    && (!h.shutdownAttempted ==> |actions| > 0 && actions[0] == Shutdown)
    && (ScheduleHint in actions <==> !h.shutdownAttempted && sig == Interrupt)
    && (Kill in actions <==> h.shutdownAttempted && sig == Interrupt)
    && NoRepeats(actions)
  }

  /** The protocol pins the reaction down: a handler state and actions meet it
      exactly when they are what `Step` gives. */
  lemma StepIsProtocol(h: Handler, sig: Signal, next: Handler, actions: seq<Action>)
    ensures Reacts(h, sig, next, actions) <==> (next, actions) == Step(h, sig)
  {
    assert [Shutdown] + [ScheduleHint] == [Shutdown, ScheduleHint];
    assert [Shutdown] + [] == [Shutdown];
    if (next, actions) == Step(h, sig) {
      if !h.shutdownAttempted && sig == Interrupt {
        assert actions == [Shutdown, ScheduleHint];
        assert actions[1] == ScheduleHint;
      } else if !h.shutdownAttempted {
        assert actions == [Shutdown];
      } else if sig == Interrupt {
        assert actions == [Kill];
        assert actions[0] == Kill;
      }
    }
    if Reacts(h, sig, next, actions) {
      assert next == Handler(true);
      Listed(actions);
      if !h.shutdownAttempted {
        var rest := actions[1..];
        assert forall i :: 0 <= i < |rest| ==> rest[i] == actions[i + 1];
        assert forall i :: 0 <= i < |rest| ==> rest[i] != actions[0];
        assert forall i :: 0 <= i < |rest| ==> rest[i] == ScheduleHint;
        assert NoRepeats(rest) by {
          forall i, j | 0 <= i < j < |rest|
            ensures rest[i] != rest[j]
          {
            assert rest[i] == actions[i + 1] && rest[j] == actions[j + 1];
          }
        }
        Uniform(rest, ScheduleHint);
        assert actions == [Shutdown] + rest;
        if sig == Interrupt {
          assert ScheduleHint in rest;
          assert rest == [ScheduleHint];
        } else {
          assert ScheduleHint !in rest;
          assert rest == [];
        }
      } else {
        assert forall i :: 0 <= i < |actions| ==> actions[i] == Kill;
        Uniform(actions, Kill);
        if sig == Interrupt {
          assert actions == [Kill];
        } else {
          assert actions == [];
        }
      }
    }
  }

  /** Every action of a list is in it. */
  lemma Listed(actions: seq<Action>)
    ensures forall i :: 0 <= i < |actions| ==> actions[i] in actions
  {
  }

  /** A list that holds only `a` holds it when it is not empty, and repeats it
      when it is longer than one. */
  lemma Uniform(actions: seq<Action>, a: Action)
    requires forall i :: 0 <= i < |actions| ==> actions[i] == a
    ensures |actions| > 0 ==> a in actions
    ensures |actions| > 1 ==> !NoRepeats(actions)
  {
    if |actions| > 0 {
      assert actions[0] == a;
    }
    if |actions| > 1 {
      assert actions[0] == actions[1];
    }
  }

  /** One pass of the goroutine's loop: the actions taken for `sig`. Afterwards
      shutdown has been attempted; the shutdown starts first, and only, on the
      first signal, the hint only when that signal is an interrupt, and a kill
      only for an interrupt after it; a later terminate does nothing; no action
      is taken twice. */
  method OnSignal(h: Handler, sig: Signal) returns (next: Handler, actions: seq<Action>)
    ensures next.shutdownAttempted
    ensures Shutdown in actions <==> !h.shutdownAttempted
    ensures !h.shutdownAttempted ==> actions[0] == Shutdown
    ensures ScheduleHint in actions <==> !h.shutdownAttempted && sig == Interrupt
    ensures Kill in actions <==> h.shutdownAttempted && sig == Interrupt
    ensures actions == [] <==> h.shutdownAttempted && sig == Terminate
    ensures NoRepeats(actions)
  {
    next := h;
    actions := [];
    if !h.shutdownAttempted {
      actions := [Shutdown];
      next := Handler(true);
      if sig == Interrupt {
        actions := actions + [ScheduleHint];
      } else {
        assert actions == [Shutdown] + [];
      }
    } else if sig == Interrupt {
      actions := [Kill];
    }
  }

  /** `OnSignal`, whose protocol is what `Step` computes. */
  method Turn(h: Handler, sig: Signal) returns (next: Handler, actions: seq<Action>)
    ensures (next, actions) == Step(h, sig)
  {
    next, actions := OnSignal(h, sig);
    StepIsProtocol(h, sig, next, actions);
  }

  /** The goroutine's loop over the signal channel. */
  method Handle(sigs: seq<Signal>) returns (h: Handler, actions: seq<Action>)
    ensures (h, actions) == Run(Initial, sigs)
  {
    h := Initial;
    actions := [];
    var k := 0;
    assert sigs[0..] == sigs;
    assert actions + Run(h, sigs[k..]).1 == Run(h, sigs[k..]).1;
    while k < |sigs|
      invariant 0 <= k <= |sigs|
      invariant Run(h, sigs[k..]).0 == Run(Initial, sigs).0
      invariant actions + Run(h, sigs[k..]).1 == Run(Initial, sigs).1
    {
      RunFrom(h, sigs, k);
      var next, more := Turn(h, sigs[k]);
      assert actions + (more + Run(next, sigs[k + 1..]).1) == (actions + more) + Run(next, sigs[k + 1..]).1;
      h, actions := next, actions + more;
      k := k + 1;
    }
    assert sigs[k..] == [];
    assert actions + Run(h, sigs[k..]).1 == actions;
  }

  /** Once shutdown was attempted, only interrupts act, each with exactly one kill. */
  lemma {:induction false} AfterShutdown(sigs: seq<Signal>)
    ensures Run(Handler(true), sigs).0 == Handler(true)
    ensures forall i :: 0 <= i < |Run(Handler(true), sigs).1| ==> Run(Handler(true), sigs).1[i] == Kill
    ensures Count(Run(Handler(true), sigs).1, Kill) == Count(sigs, Interrupt)
    decreases |sigs|
  {
    if |sigs| > 0 {
      AfterShutdown(sigs[1..]);
      var rest := Run(Handler(true), sigs[1..]).1;
      var first := Step(Handler(true), sigs[0]).1;
      CountAppend(first, rest, Kill);
    }
  }

  /** The first signal of either kind starts the shutdown, and it is started
      exactly once; the hint is scheduled only when that signal is an
      interrupt; every later interrupt kills, every later terminate does
      nothing; and no kill comes before the shutdown. */
  lemma SignalProtocol(sigs: seq<Signal>)
    requires |sigs| >= 1
    ensures var h := Run(Initial, sigs).0;
      var actions := Run(Initial, sigs).1;
      && h.shutdownAttempted
      && actions[0] == Shutdown
      && Count(actions, Shutdown) == 1
      && Count(actions, ScheduleHint) == (if sigs[0] == Interrupt then 1 else 0)
      && Count(actions, Kill) == Count(sigs[1..], Interrupt)
  {
    AfterShutdown(sigs[1..]);
    var rest := Run(Handler(true), sigs[1..]).1;
    var first := Step(Initial, sigs[0]).1;
    CountAppend(first, rest, Shutdown);
    CountAppend(first, rest, ScheduleHint);
    CountAppend(first, rest, Kill);
    NoneOther(rest, Shutdown);
    NoneOther(rest, ScheduleHint);
  }

  lemma {:induction false} NoneOther(actions: seq<Action>, a: Action)
    requires a != Kill
    requires forall i :: 0 <= i < |actions| ==> actions[i] == Kill
    ensures Count(actions, a) == 0
    decreases |actions|
  {
    if |actions| > 0 {
      NoneOther(actions[1..], a);
    }
  }

  /** Without a signal nothing happens. */
  lemma NoSignalNoAction()
    ensures Run(Initial, []) == (Initial, [])
  {
  }
}

=== FILE: text.dfy ===
/** The handful of Go `strings` operations the proxy relies on, over `seq<char>`:
    `strings.Index`, `strings.Contains`, `strings.Split` and `strings.Join` with a
    one-character separator, and ASCII `strings.ToLower`. */
module Text {

  /** `sub` occurs in `s` starting at position `i`. */
  predicate OccursAt(s: string, sub: string, i: int) {
    0 <= i && i + |sub| <= |s| && s[i..i + |sub|] == sub
  }

  /** Search for `sub` in `s` from position `from` onwards. */
  function IndexFrom(s: string, sub: string, from: nat): (r: int)
    requires from <= |s| + 1
    ensures r == -1 || from <= r <= |s|
    ensures r >= 0 ==> OccursAt(s, sub, r)
    ensures r >= 0 ==> forall j :: from <= j < r ==> !OccursAt(s, sub, j)
    ensures r == -1 ==> forall j :: from <= j ==> !OccursAt(s, sub, j)
    decreases |s| + 1 - from
  {
    if from + |sub| > |s| then -1
    else if s[from..from + |sub|] == sub then from
    else IndexFrom(s, sub, from + 1)
  }

  /** Go's `strings.Index`: the first position of `sub` in `s`, or -1. */
  function IndexOf(s: string, sub: string): (r: int)
    ensures r == -1 || 0 <= r <= |s|
    ensures r >= 0 ==> OccursAt(s, sub, r) && forall j :: 0 <= j < r ==> !OccursAt(s, sub, j)
    ensures r == -1 <==> forall j :: !OccursAt(s, sub, j)
  {
    IndexFrom(s, sub, 0)
  }

  /** Go's `strings.Contains`. */
  predicate Contains(s: string, sub: string) {
    IndexOf(s, sub) >= 0
  }

  lemma ContainsIff(s: string, sub: string)
    ensures Contains(s, sub) <==> exists i :: OccursAt(s, sub, i)
  {
    if !Contains(s, sub) {
      assert forall j :: !OccursAt(s, sub, j);
    }
  }

  /** Go's `strings.Join(parts, string(sep))`; the empty list joins to "". */
  function Join(parts: seq<string>, sep: char): string {
    if |parts| == 0 then ""
    else if |parts| == 1 then parts[0]
    else parts[0] + [sep] + Join(parts[1..], sep)
  }

  /** Go's `strings.Split(s, string(sep))`: the separator-free pieces between
      separators, always at least one (`Split("", sep) == [""]`). */
  function Split(s: string, sep: char): (parts: seq<string>)
    ensures |parts| >= 1
    ensures forall i :: 0 <= i < |parts| ==> sep !in parts[i]
    decreases |s|
  {
    if |s| == 0 then [""]
    else
      var rest := Split(s[1..], sep);
      if s[0] == sep then [""] + rest
      else [[s[0]] + rest[0]] + rest[1..]
  }

  /** Joining the pieces of a split with the same separator restores the text. */
  lemma {:induction false} JoinSplit(s: string, sep: char)
    ensures Join(Split(s, sep), sep) == s
    decreases |s|
  {
    if |s| > 0 {
      var rest := Split(s[1..], sep);
      JoinSplit(s[1..], sep);
      if s[0] == sep {
        assert ([""] + rest)[1..] == rest;
      } else {
        var parts := [[s[0]] + rest[0]] + rest[1..];
        assert parts[1..] == rest[1..];
        assert Join(parts, sep) == [s[0]] + Join(rest, sep);
      }
    }
  }

  /** Splitting a join of separator-free pieces gives the pieces back. */
  lemma {:induction false} SplitJoin(parts: seq<string>, sep: char)
    requires |parts| >= 1
    requires forall i :: 0 <= i < |parts| ==> sep !in parts[i]
    ensures Split(Join(parts, sep), sep) == parts
    decreases |parts|, |parts[0]|
  {
    var s := Join(parts, sep);
    if |parts| == 1 {
      SplitWithoutSeparator(parts[0], sep);
    } else if |parts[0]| == 0 {
      assert s == [sep] + Join(parts[1..], sep);
      assert s[1..] == Join(parts[1..], sep);
      SplitJoin(parts[1..], sep);
      assert Split(s, sep) == [""] + parts[1..];
    } else {
      var shorter := [parts[0][1..]] + parts[1..];
      assert shorter[1..] == parts[1..];
      assert Join(shorter, sep) == parts[0][1..] + [sep] + Join(parts[1..], sep);
      assert s == [parts[0][0]] + Join(shorter, sep);
      assert s[1..] == Join(shorter, sep);
      assert sep !in shorter[0];
      SplitJoin(shorter, sep);
      assert Split(s, sep) == [[parts[0][0]] + parts[0][1..]] + parts[1..];
      assert [parts[0][0]] + parts[0][1..] == parts[0];
    }
  }

  lemma {:induction false} SplitWithoutSeparator(s: string, sep: char)
    requires sep !in s
    ensures Split(s, sep) == [s]
    decreases |s|
  {
    if |s| > 0 {
      assert sep !in s[1..];
      SplitWithoutSeparator(s[1..], sep);
      assert [s[0]] + s[1..] == s;
    }
  }

  /** A join of `n` pieces has `n` parts separated by `n - 1` separators: a
      separator never appears in a join of separator-free pieces except between them. */
  lemma {:induction false} JoinWithoutSeparator(parts: seq<string>, sep: char, c: char)
    requires c != sep
    requires forall i :: 0 <= i < |parts| ==> c !in parts[i]
    ensures c !in Join(parts, sep)
    decreases |parts|
  {
    if |parts| > 1 {
      JoinWithoutSeparator(parts[1..], sep, c);
    }
  }

  /** The last piece of a join ends it. */
  lemma {:induction false} JoinEndsWithLast(parts: seq<string>, sep: char)
    requires |parts| >= 1
    ensures var s := Join(parts, sep); var last := parts[|parts| - 1];
      |last| <= |s| && s[|s| - |last|..] == last
    decreases |parts|
  {
    if |parts| > 1 {
      JoinEndsWithLast(parts[1..], sep);
      var rest := Join(parts[1..], sep);
      var last := parts[|parts| - 1];
      assert parts[1..][|parts| - 2] == last;
      var s := parts[0] + [sep] + rest;
      assert s[|s| - |last|..] == rest[|rest| - |last|..];
    }
  }

  /** ASCII case folding, as `strings.ToLower` does on ASCII input. */
  function LowerChar(c: char): char {
    if 'A' <= c <= 'Z' then (c as int + 32) as char else c
  }

  /** `strings.ToLower` on ASCII text: every upper-case letter lowered, nothing else touched. */
  function ToLower(s: string): (r: string)
    ensures |r| == |s|
    ensures forall i :: 0 <= i < |r| ==> !('A' <= r[i] <= 'Z')
    ensures forall i :: 0 <= i < |s| && !('A' <= s[i] <= 'Z') ==> r[i] == s[i]
    ensures forall i :: 0 <= i < |s| && 'A' <= s[i] <= 'Z' ==> r[i] as int == s[i] as int + 32
  {
    seq(|s|, i requires 0 <= i < |s| => LowerChar(s[i]))
  }

  /** Lower-casing text that is already lower case changes nothing. */
  lemma ToLowerIdempotent(s: string)
    ensures ToLower(ToLower(s)) == ToLower(s)
  {
    var r := ToLower(s);
    assert forall i :: 0 <= i < |r| ==> ToLower(r)[i] == r[i];
  }

  predicate IsUpper(c: char) { 'A' <= c <= 'Z' }

  predicate IsLowerOrDigit(c: char) { 'a' <= c <= 'z' || '0' <= c <= '9' }
}

=== FILE: wire.dfy ===
/** Wire-message framing of the proxy (`handlers/command.go`): a memcached
    binary-protocol message is a 24-byte header whose bytes 8 to 11 hold the
    big-endian total body length, followed by exactly that many body bytes.
    A connection is an input byte stream with an output, a `closed` flag and
    read and write deadlines; the net package's answers (a failing deadline
    call or write, how the input ends) are fields of the connection. */
module Wire {
  import opened Results

  newtype byte = x: int | 0 <= x < 256

  const HeaderLength: nat := 24

  /** The total body length: header bytes 8 to 11 read as a big-endian unsigned
      32-bit number. */
  function BodyLength(header: seq<byte>): (n: nat)
    requires |header| >= 12
    ensures n < 0x1_0000_0000
  {
    ((header[8] as int * 256 + header[9] as int) * 256 + header[10] as int) * 256 + header[11] as int
  }

  /** The length of the whole message the header announces. */
  function MessageSize(header: seq<byte>): (size: nat)
    requires |header| >= 12
    ensures HeaderLength <= size < HeaderLength + 0x1_0000_0000
  {
    HeaderLength + BodyLength(header)
  }

  /** The four big-endian bytes of a 32-bit length. */
  function LengthBytes(n: nat): (bs: seq<byte>)
    requires n < 0x1_0000_0000
    ensures |bs| == 4
  {
    var n1 := n / 256;
    var n2 := n1 / 256;
    [(n2 / 256) as byte, (n2 % 256) as byte, (n1 % 256) as byte, (n % 256) as byte]
  }

  /** A header carrying body length `n` announces exactly `n`. */
  lemma BodyLengthOfBytes(prefix: seq<byte>, n: nat, suffix: seq<byte>)
    requires |prefix| == 8 && n < 0x1_0000_0000
    ensures BodyLength(prefix + LengthBytes(n) + suffix) == n
  {
    var h := prefix + LengthBytes(n) + suffix;
    var n1 := n / 256;
    var n2 := n1 / 256;
    assert h[8] as int == n2 / 256 && h[9] as int == n2 % 256;
    assert h[10] as int == n1 % 256 && h[11] as int == n % 256;
    assert n2 == (n2 / 256) * 256 + n2 % 256;
    assert n1 == n2 * 256 + n1 % 256;
    assert n == n1 * 256 + n % 256;
  }

  /** Go's conversion of an integer to `int32`: two's complement wrap-around. */
  function Int32(x: int): (r: int)
    ensures -0x8000_0000 <= r < 0x8000_0000
    ensures (r - x) % 0x1_0000_0000 == 0
  {
    var m := x % 0x1_0000_0000;
    if m >= 0x8000_0000 then m - 0x1_0000_0000 else m
  }

  /** The size as the source computes it: the four bytes are assembled into an
      `int32` and 24 is added in `int32` arithmetic. */
  function SizeAsWritten(header: seq<byte>): int
    requires |header| >= 12
  {
    Int32(HeaderLength + Int32(BodyLength(header)))
  }

  /** Up to a body length of 2^31 - 25 the `int32` computation is exact. */
  lemma SizeAsWrittenInRange(header: seq<byte>)
    requires |header| >= 12 && BodyLength(header) <= 0x7fff_ffff - HeaderLength
    ensures SizeAsWritten(header) == MessageSize(header)
  {
  }

  /** A header whose byte 8 is 0x80 gives a negative `int32` size, so the
      source's `dst[:size]` is out of range and the read panics. */
  lemma NegativeSizeAsWritten()
    ensures var header := seq(8, _ => 0 as byte) + [0x80 as byte, 0, 0, 0] + seq(12, _ => 0 as byte);
      BodyLength(header) == 0x8000_0000 && SizeAsWritten(header) == -0x7fff_ffe8
  {
    var header := seq(8, _ => 0 as byte) + [0x80 as byte, 0, 0, 0] + seq(12, _ => 0 as byte);
    assert header[8] == 0x80 && header[9] == 0 && header[10] == 0 && header[11] == 0;
  }

  /** How a connection's input ends once its available bytes are used up: a
      clean end of file, or some other error (a reset, a timeout). */
  datatype Ending = Eof | Fault

  datatype Conn = Conn(
    address: string,
    id: nat,
    input: seq<byte>,
    ending: Ending,
    output: seq<byte>,
    closed: bool,
    readDeadline: Option<int>,
    writeDeadline: Option<int>,
    deadlineFails: bool,
    writeFails: bool)

  /** A `context.Context`: whether it is done, and its deadline if it has one. */
  datatype Context = Context(done: bool, deadline: Option<int>)

  /** What went wrong, one kind per message of the source's `ConnectionError`s. */
  datatype ErrorKind =
    | ReadCancelled
    | WriteCancelled
    | ReadDeadlineFailed
    | WriteDeadlineFailed
    | HeaderIncomplete
    | BodyIncomplete
    | WriteFailed

  /** A bare end of file, or a `ConnectionError` naming the connection. */
  datatype WireError =
    | EndOfStream
    | ConnectionError(address: string, id: nat, kind: ErrorKind)

  /** The `Message` text each `ConnectionError` carries. */
  function KindMessage(kind: ErrorKind): string {
    match kind
    case ReadCancelled => "failed to read"
    case WriteCancelled => "failed to write"
    case ReadDeadlineFailed => "failed to set read deadline"
    case WriteDeadlineFailed => "failed to set write deadline"
    case HeaderIncomplete => "incomplete read of message header"
    case BodyIncomplete => "incomplete read of full message"
    case WriteFailed => "unable to write wire message to network"
  }

  /** Each kind of failure has its own message, so the message alone names the
      step of the read or write that failed. */
  lemma KindMessageNamesKind(a: ErrorKind, b: ErrorKind)
    ensures KindMessage(a) == KindMessage(b) <==> a == b
  {
  }

  /** The deadline of a read or write at time `now`: `now + timeout` when the
      timeout is not zero, replaced by the context's deadline when that is
      earlier or there is no timeout; `None` is Go's zero time, no deadline. */
  function Deadline(now: int, timeout: int, ctx: Context): (d: Option<int>)
    ensures d.None? <==> timeout == 0 && ctx.deadline.None?
    ensures d.Some? ==> (timeout != 0 && d.value == now + timeout) || ctx.deadline == d
    ensures d.Some? && timeout != 0 ==> d.value <= now + timeout
    ensures d.Some? && ctx.deadline.Some? ==> d.value <= ctx.deadline.value
  {
    var own := if timeout != 0 then Some(now + timeout) else None;
    if ctx.deadline.Some? && (own.None? || ctx.deadline.value < own.value) then ctx.deadline else own
  }

  datatype ReadOutcome = ReadOutcome(result: Result<seq<byte>, WireError>, conn: Conn)

  function Failed(c: Conn, kind: ErrorKind): WireError {
    ConnectionError(c.address, c.id, kind)
  }

  /** `ReadWireMessage`: one whole message from the connection's input. */
  function ReadWireMessage(ctx: Context, now: int, c: Conn, timeout: int): (out: ReadOutcome)
    ensures out.result.Success? ==>
      && |c.input| >= HeaderLength
      && MessageSize(c.input) <= |c.input|
      && out.result.value == c.input[..MessageSize(c.input)]
      && out.conn == c.(input := c.input[MessageSize(c.input)..], readDeadline := Deadline(now, timeout, ctx))
    ensures out.conn.output == c.output && out.conn.writeDeadline == c.writeDeadline
    ensures out.conn.closed <==> c.closed || (out.result.Failure? && out.result.error != Failed(c, ReadDeadlineFailed))
    ensures out.result == Failure(EndOfStream) <==> !ctx.done && !c.deadlineFails && c.input == [] && c.ending == Eof
    ensures ctx.done ==> out.result == Failure(Failed(c, ReadCancelled))
    ensures !ctx.done && c.deadlineFails ==> out.result == Failure(Failed(c, ReadDeadlineFailed))
    ensures !ctx.done && !c.deadlineFails && |c.input| < HeaderLength && !(c.input == [] && c.ending == Eof) ==>
      out.result == Failure(Failed(c, HeaderIncomplete))
    ensures !ctx.done && !c.deadlineFails && HeaderLength <= |c.input| < MessageSize(c.input) ==>
      out.result == Failure(Failed(c, BodyIncomplete))
    ensures out.result.Success? <==> !ctx.done && !c.deadlineFails && HeaderLength <= |c.input| && MessageSize(c.input) <= |c.input|
  {
    if ctx.done then
      ReadOutcome(Failure(Failed(c, ReadCancelled)), c.(closed := true))
    else if c.deadlineFails then
      ReadOutcome(Failure(Failed(c, ReadDeadlineFailed)), c)
    else
      var c := c.(readDeadline := Deadline(now, timeout, ctx));
      if |c.input| < HeaderLength then
        var err := if |c.input| == 0 && c.ending == Eof then EndOfStream else Failed(c, HeaderIncomplete);
        ReadOutcome(Failure(err), c.(input := [], closed := true))
      else
        var size := MessageSize(c.input[..HeaderLength]);
        if size > HeaderLength && |c.input| < size then
          ReadOutcome(Failure(Failed(c, BodyIncomplete)), c.(input := [], closed := true))
        else
          ReadOutcome(Success(c.input[..size]), c.(input := c.input[size..]))
  }

  datatype WriteOutcome = WriteOutcome(err: Option<WireError>, conn: Conn)

  /** `WriteWireMessage`: the whole message appended to the connection's output. */
  function WriteWireMessage(ctx: Context, now: int, wm: seq<byte>, c: Conn, timeout: int): (out: WriteOutcome)
    ensures out.err.None? <==> !ctx.done && !c.deadlineFails && !c.writeFails
    ensures out.err.None? ==> out.conn == c.(output := c.output + wm, writeDeadline := Deadline(now, timeout, ctx))
    ensures out.err.Some? ==> out.conn.output == c.output
    ensures out.conn.input == c.input && out.conn.readDeadline == c.readDeadline
    ensures out.conn.closed <==> c.closed || out.err == Some(Failed(c, WriteFailed))
    ensures ctx.done ==> out.err == Some(Failed(c, WriteCancelled))
    ensures !ctx.done && c.deadlineFails ==> out.err == Some(Failed(c, WriteDeadlineFailed))
    ensures !ctx.done && !c.deadlineFails && c.writeFails ==> out.err == Some(Failed(c, WriteFailed))
  {
    if ctx.done then
      WriteOutcome(Some(Failed(c, WriteCancelled)), c)
    else if c.deadlineFails then
      WriteOutcome(Some(Failed(c, WriteDeadlineFailed)), c)
    else
      var c := c.(writeDeadline := Deadline(now, timeout, ctx));
      if c.writeFails then
        WriteOutcome(Some(Failed(c, WriteFailed)), c.(closed := true))
      else
        WriteOutcome(None, c.(output := c.output + wm))
  }

  /** A well-formed message: a header and exactly the body it announces. */
  predicate Framed(m: seq<byte>) {
    |m| >= HeaderLength && |m| == MessageSize(m)
  }

  /** A framed message followed by anything reads back as itself, leaving the
      rest of the stream for the next read. */
  lemma ReadFramed(ctx: Context, now: int, c: Conn, timeout: int, m: seq<byte>, rest: seq<byte>)
    requires Framed(m) && c.input == m + rest
    requires !ctx.done && !c.deadlineFails
    ensures ReadWireMessage(ctx, now, c, timeout).result == Success(m)
    ensures ReadWireMessage(ctx, now, c, timeout).conn.input == rest
  {
    assert c.input[..HeaderLength] == m[..HeaderLength];
    assert c.input[..|m|] == m;
    assert c.input[|m|..] == rest;
  }

  /** Writing a framed message to one connection and reading from a connection
      that received those bytes gives the message back. */
  lemma WriteThenRead(ctx: Context, now: int, m: seq<byte>, w: Conn, r: Conn, timeout: int)
    requires Framed(m) && !ctx.done && !w.deadlineFails && !w.writeFails && !r.deadlineFails
    requires r.input == WriteWireMessage(ctx, now, m, w, timeout).conn.output[|w.output|..]
    ensures ReadWireMessage(ctx, now, r, timeout).result == Success(m)
  {
    assert r.input == m + [];
    ReadFramed(ctx, now, r, timeout, m, []);
  }

  datatype RoundTrip = RoundTrip(result: Result<seq<byte>, WireError>, returned: Option<Conn>)

  /** `roundTrip`: check out an upstream connection (the pool's answer is
      `checkout`), write the request to it, read its reply, and hand the
      connection back to the pool on every path once the checkout succeeded. */
  function RoundTripOf(ctx: Context, now: int, wm: seq<byte>, checkout: Result<Conn, WireError>,
                       readTimeout: int, writeTimeout: int): (rt: RoundTrip)
    ensures checkout.Failure? ==> rt == RoundTrip(Failure(checkout.error), None)
    ensures checkout.Success? ==> rt.returned.Some?
    ensures checkout.Success? ==> rt.returned.value.address == checkout.value.address && rt.returned.value.id == checkout.value.id
    ensures checkout.Success? && rt.result.Success? ==>
      rt.returned.value.output == checkout.value.output + wm
  {
    match checkout
    case Failure(e) => RoundTrip(Failure(e), None)
    case Success(upstream) =>
      var w := WriteWireMessage(ctx, now, wm, upstream, writeTimeout);
      if w.err.Some? then RoundTrip(Failure(w.err.value), Some(w.conn))
      else
        var r := ReadWireMessage(ctx, now, w.conn, readTimeout);
        RoundTrip(r.result, Some(r.conn))
  }

  datatype Handled = Handled(err: Option<WireError>, client: Conn, returned: Option<Conn>)

  /** `handleMessage`: read a request from the client without a deadline,
      forward it, and write the upstream's reply back to the client. */
  function HandleMessage(ctx: Context, now: int, client: Conn, checkout: Result<Conn, WireError>,
                         readTimeout: int, writeTimeout: int): (h: Handled)
    ensures h.err.None? ==> checkout.Success? && h.returned.Some?
    ensures checkout.Failure? ==> h.returned.None? && h.client.output == client.output
  {
    var req := ReadWireMessage(ctx, now, client, 0);
    match req.result
    case Failure(e) => Handled(Some(e), req.conn, None)
    case Success(wm) =>
      var rt := RoundTripOf(ctx, now, wm, checkout, readTimeout, writeTimeout);
      match rt.result
      case Failure(e) => Handled(Some(e), req.conn, rt.returned)
      case Success(res) =>
        var w := WriteWireMessage(ctx, now, res, req.conn, 0);
        Handled(w.err, w.conn, rt.returned)
  }

  /** With nothing failing, the proxy forwards one request and its reply: the
      upstream receives the request, the client receives the reply, both
      streams keep what follows, and the upstream connection goes back open. */
  lemma ForwardOne(ctx: Context, now: int, client: Conn, upstream: Conn, req: seq<byte>, reply: seq<byte>,
                   more: seq<byte>, later: seq<byte>, readTimeout: int, writeTimeout: int)
    requires Framed(req) && Framed(reply)
    requires client.input == req + more && upstream.input == reply + later
    requires !ctx.done && !client.deadlineFails && !client.writeFails
    requires !upstream.deadlineFails && !upstream.writeFails && !upstream.closed && !client.closed
    ensures var h := HandleMessage(ctx, now, client, Success(upstream), readTimeout, writeTimeout);
      && h.err.None?
      && h.client.input == more && h.client.output == client.output + reply && !h.client.closed
      && h.returned.Some? && h.returned.value.input == later
      && h.returned.value.output == upstream.output + req && !h.returned.value.closed
  {
    ReadFramed(ctx, now, client, 0, req, more);
    var w := WriteWireMessage(ctx, now, req, upstream, writeTimeout);
    ReadFramed(ctx, now, w.conn, readTimeout, reply, later);
  }
}
